=== FILE: README.md ===
# Deauthentication detector — a Dafny model

This project models the detection engine of the WiFi deauthentication
detector (`deauth_detector.py`), together with the line parser that feeds it.

- **The state** is an immutable `DeauthDetector` record (`Engine`). It holds:
  - the threshold and the window;
  - the log of events and the log of alerts;
  - per window key, the list of recent frame times;
  - two frequency tables, one per source address and one per target address.
- **One step** is `Engine.ProcessEvent(d, e, now)`. The wall clock becomes the
  parameter `now`. The step:
  - logs the event;
  - counts its source and its destination;
  - appends `now` to the list under the key `source->dest`;
  - filters that whole list to the times `t` with `now - t < window`;
  - appends an alert when the filtered list holds at least `threshold` times.

  There is no cooldown: every frame that keeps a key at or above the
  threshold raises another alert.
- **Alert classification** (`Engine.GenerateAlert`): a frame sent to
  `ff:ff:ff:ff:ff:ff` is a critical broadcast attack. Any other destination is
  a high-severity targeted attack.
- **Statistics** (`Engine.GetStats`) return:
  - the two totals;
  - the number of distinct sources and of distinct targets;
  - the five most common of each, with the semantics of Python's
    `Counter.most_common`: descending count, and equal counts in
    first-insertion order.

  `Frequency` models the `Counter` as a sequence of entries in insertion order.
  `MostCommon` is a stable best-first selection.
- **The parser** (`Parser`, `Engine.ParseFrame`):
  - splits a line on whitespace;
  - keeps every token of 17 characters with exactly five `:`, lower-cased, as
    a MAC address;
  - with at least two addresses, builds one event. The source is the first
    address, the destination the second, and the BSSID the third, or the
    first when there is no third.
  - marks the frame a deauthentication when the line contains
    `Deauthentication`, and a disassociation otherwise.
- **Streams** (`Replay`): `Replay.Run` folds `ProcessEvent` over a stream of
  arrivals. Over a whole stream the lemmas show that:
  - the logs and frequency tables follow the stream exactly;
  - with a clock that never runs backwards, each window list holds exactly the
    key's arrival times that were in the window at that key's latest arrival; a
    key with no new frames keeps stale times until its next frame;
  - on such a stream a frame raises an alert exactly when its key has at least
    `threshold` frames in the window ending at that frame.
- **Worked examples** (`Scenarios`):
  - the program's own demonstration stream, with its three alerts and its
    statistics;
  - a burst whose window slides past old frames;
  - a tie in the ranking;
  - one parsed line.

The step filters the whole time list of a key (lines 174-177 of
`deauth_detector.py`), and the key is the text `source + "->" + dest`
(line 169).
`Engine.WindowKeyInjective` shows that the text key never merges two pairs
whose sources have the same length. That covers every pair the parser
produces, since its addresses all have 17 characters.
`Engine.WindowKeyCollision` shows that arbitrary strings can collide.

## Model

| member | source | states |
|---|---|---|
| Records.FrameType | deauth_detector.py:47 | The frame kind, one of the two values "deauth" and "disassoc" the parser writes |
| Records.DeauthEvent | deauth_detector.py:41-49 | One observed frame: timestamp, source, destination, BSSID, frame kind, reason code and an optional channel |
| Records.Alert | deauth_detector.py:52-61 | One alert: timestamp, severity, attack type, source, target, BSSID, number of frames and description |
| Engine.DeauthDetector | deauth_detector.py:84-94 | The detector state: threshold, window, event and alert logs, the time lists per key, and the two frequency tables |
| Engine.History | deauth_detector.py:92 | The times kept for a key, where a key never seen has none, as with `defaultdict(list)` |
| Engine.Broadcast | deauth_detector.py:197 | The broadcast destination `ff:ff:ff:ff:ff:ff` |
| Engine.TopCount | deauth_detector.py:240-241 | Each top list of the statistics holds at most 5 entries |
| Engine.NewDetector | deauth_detector.py:82-94 | A new detector keeps the given threshold and window and starts with empty logs, no window lists and empty counters; the source's defaults (line 82) are kept as the constants `DefaultThreshold` 10 and `DefaultWindow` 60 |
| Engine.WindowKey | deauth_detector.py:169 | The key is the source, then "->", then the destination, each recoverable by position |
| Engine.ProcessEvent | deauth_detector.py:160-184 | One step: the event is appended to the log; source and destination counts each rise by one while every other count is unchanged; the key's list becomes the old list pruned at `now`, followed by `now` when the window is positive (so it is never empty then); every other key's list is unchanged; the alert log grows by exactly one alert iff the new list is at least `threshold` long, that alert being the classification of the event with the list's length |
| Engine.GenerateAlert | deauth_detector.py:194-218 | The alert copies timestamp, source, destination (as target) and BSSID and carries the given count; severity is critical and type broadcast exactly when the destination is the broadcast address, high and targeted exactly otherwise |
| Engine.Stats | deauth_detector.py:235-242 | The statistics snapshot: the two totals, the two unique counts and the two top lists |
| Engine.GetStats | deauth_detector.py:233-242 | Totals equal the log lengths; for counters without repeated keys the unique counts are the numbers of distinct keys; each top list is `MostCommon` of its counter with 5, so it holds min(unique, 5) entries of the counter in non-increasing count order, no entry left out has a larger count than one listed, and equal counts keep insertion order |
| Engine.ParseFrame | deauth_detector.py:130-158 | A line with fewer than two MAC addresses leaves the detector unchanged; any other line appends exactly one event whose source and destination are the first two extracted addresses, and the detector is then exactly the result of processing the parsed event (counters, window list and alert included) |
| Engine.WindowKeyInjective | deauth_detector.py:169 | Equal keys built from sources of equal length come from the same source and destination |
| Engine.WindowKeyCollision | deauth_detector.py:169 | For sources of different lengths two different pairs can share a key |
| Engine.ParsedKeysInjective | deauth_detector.py:169 | Two parsed events share a window key exactly when they share source and destination |
| Parser.ParseLine | deauth_detector.py:134-153 | No event iff fewer than two MAC tokens; otherwise the event carries the given timestamp, reason code 0, no channel, lower-case 17-character addresses, source = first, destination = second, BSSID = third or else first, and is a deauthentication iff the line contains "Deauthentication" |
| Parser.WordLength | deauth_detector.py:134 | The length of the leading run of non-whitespace characters: all of it non-whitespace, and followed by whitespace or the end |
| Parser.IsSpace | deauth_detector.py:134 | The characters `str.split()` treats as separators |
| Parser.Split | deauth_detector.py:134 | Every token is non-empty and free of whitespace |
| Parser.SplitSpace | deauth_detector.py:134 | Whitespace in front of a line contributes no token |
| Parser.SplitTrailingSpace | deauth_detector.py:121-134 | Whitespace at the end of a line, such as the newline `readline()` keeps, contributes no token |
| Parser.SplitJoin | deauth_detector.py:134 | Splitting tokens joined by single spaces gives the tokens back |
| Parser.SplitWord | deauth_detector.py:134 | A word followed by whitespace or nothing is split off as one token |
| Parser.Lower | deauth_detector.py:143 | Lower-casing keeps the length and maps each character on its own |
| Parser.LowerColons | deauth_detector.py:142-143 | Lower-casing keeps the number of ':' characters, so a stored address still has five |
| Parser.LowerIdempotent | deauth_detector.py:143 | Lower-casing twice is lower-casing once |
| Parser.ExtractMacs | deauth_detector.py:140-143 | No more addresses than tokens |
| Parser.ExtractedAreStored | deauth_detector.py:140-143 | Every extracted address has 17 characters, five ':' and is in lower case |
| Parser.ExtractMacsAppend | deauth_detector.py:140-143 | Extraction distributes over concatenation, so addresses keep their order of appearance |
| Parser.ExtractMacsCons | deauth_detector.py:141-143 | The first token contributes its lower-cased self exactly when it is a MAC token, ahead of the rest |
| Parser.ExtractMacsSingle | deauth_detector.py:142-143 | One token yields its lower-cased self iff it is a MAC token |
| Parser.ExtractMacsMembers | deauth_detector.py:140-143 | Every MAC token's lower-cased form is extracted, and every extracted address comes from a MAC token |
| Parser.ExtractMacsFirst | deauth_detector.py:140-148 | The first extracted address (the source) comes from the first MAC token, the rest from the tokens after it |
| Parser.IsMacToken | deauth_detector.py:142 | A token is a MAC address when it has 17 characters of which exactly five are ':' |
| Parser.Contains | deauth_detector.py:137 | The substring test `in` |
| Parser.ContainsIff | deauth_detector.py:137 | The substring test holds exactly when the pattern occurs at some position |
| Parser.FrameTypeOf | deauth_detector.py:137 | Deauthentication iff the line contains "Deauthentication", disassociation otherwise; the kind's tag is "deauth" or "disassoc" accordingly |
| Window.Fresh | deauth_detector.py:176 | A time is still in the window when it is less than `window` seconds before `now` |
| Window.Prune | deauth_detector.py:174-177 | Filtering never lengthens the list and keeps only times still in the window |
| Window.PruneContents | deauth_detector.py:174-177 | Every fresh time is kept as often as it was recorded and every stale time is dropped |
| Window.PruneAppend | deauth_detector.py:174-177 | Filtering distributes over concatenation, so the kept times keep their order |
| Window.PruneSingle | deauth_detector.py:174-177 | A single time is kept exactly when it is fresh |
| Window.RecordThenPrune | deauth_detector.py:171-177 | Appending `now` and then filtering at `now` is filtering the old list and then appending `now` exactly when the window is positive |
| Window.PruneLater | deauth_detector.py:174-177 | Filtering at an earlier instant and then at a later one is filtering once at the later one |
| Frequency.Entry | deauth_detector.py:93-94 | One key of a `Counter` with its count |
| Frequency.Counter | deauth_detector.py:93-94 | A `Counter`, kept as a sequence of entries in insertion order |
| Frequency.Get | deauth_detector.py:165-166 | The count of a key, read as in a `Counter` |
| Frequency.GetMissing | deauth_detector.py:165-166 | A key the counter does not hold reads as 0 |
| Frequency.Increment | deauth_detector.py:165-166 | The key's count rises by one and every other key's count is unchanged; existing entries keep their keys in place, and a new key is appended at the end with count 1 |
| Frequency.IncrementCons | deauth_detector.py:165-166 | Incrementing updates the first entry when it holds the key and otherwise passes on to the rest |
| Frequency.IncrementSum | deauth_detector.py:165-166 | Incrementing adds exactly one to the total of all counts |
| Frequency.IncrementKeys | deauth_detector.py:165-166 | The keys afterwards are the keys before plus the incremented key |
| Frequency.IncrementGrows | deauth_detector.py:165-166 | The counter grows by one entry exactly when the key was missing |
| Frequency.IncrementDistinct | deauth_detector.py:165-166 | Incrementing never creates a repeated key |
| Frequency.TallyGet | deauth_detector.py:165-166 | After counting a sequence, each key's count is its starting count plus its number of occurrences |
| Frequency.TallySum | deauth_detector.py:165-166 | After counting a sequence, the total is the starting total plus the sequence's length |
| Frequency.TallyKeys | deauth_detector.py:165-166 | After counting a sequence, the keys are the starting keys plus the sequence's values |
| Frequency.TallyDistinct | deauth_detector.py:165-166 | Counting keeps keys distinct |
| Frequency.KeySeqIncrement | deauth_detector.py:165-166 | Incrementing keeps the key order and appends a missing key at the end |
| Frequency.TallyOrder | deauth_detector.py:165-166 | Counting from empty lists the keys in order of first occurrence |
| Frequency.DistinctKeyCount | deauth_detector.py:238-239 | Without repeated keys the number of entries is the number of distinct keys |
| Frequency.Precedes | deauth_detector.py:240-241 | The ranking order: higher count first, equal counts earlier-inserted first |
| Frequency.Best | deauth_detector.py:240-241 | The chosen position is not yet taken and ranks before every other untaken position; none is chosen only when all are taken |
| Frequency.Top | deauth_detector.py:240-241 | The chosen positions are untaken, in ranking order, rank before every position left out, and fall short of the requested number only when nothing is left |
| Frequency.TopPositions | deauth_detector.py:240-241 | Exactly min(n, size) positions, in ranking order (higher count first, equal counts earlier-inserted first), each ranking before every position left out |
| Frequency.MostCommon | deauth_detector.py:240-241 | min(n, size) entries of the counter in non-increasing count order, in the order of `TopPositions`; no entry left out has a larger count than one listed |
| Frequency.MostCommonOfSorted | deauth_detector.py:240-241 | A counter whose counts are already non-increasing is listed as it stands: equal counts are never reordered |
| Replay.Run | deauth_detector.py:160-184 | A stream of frames processed one after another, each at its own instant |
| Replay.RunEvents | deauth_detector.py:162 | Over a stream the settings never change and the event log is exactly the stream's events |
| Replay.RunCounters | deauth_detector.py:165-166 | Over a stream the frequency tables are the counts of the stream's sources and targets |
| Replay.RunAlerts | deauth_detector.py:183-184 | The alert log only grows, by at most one alert per frame |
| Replay.RunCounts | deauth_detector.py:233-242 | From a new detector: total events is the stream length, each table sums to it, and each address's count is its number of occurrences in the stream |
| Replay.RunDistinct | deauth_detector.py:233-242 | From a new detector: each table lists its addresses in order of first occurrence, and the unique counts are the numbers of distinct sources and targets |
| Replay.TallyFacts | deauth_detector.py:165-166 | Counting from empty gives total = length, count = occurrences, first-occurrence order, distinct keys and one entry per distinct value |
| Replay.WindowStep | deauth_detector.py:169-177 | One step keeps each key's list equal to its recorded times filtered at the latest of them |
| Replay.RunWindows | deauth_detector.py:169-177 | With a clock that never runs backwards, each key's list is its arrival times filtered at its latest arrival, and a key that never arrived has no list |
| Replay.ThresholdAlert | deauth_detector.py:174-184 | With a clock that never runs backwards, the last frame raises an alert iff at least `threshold` frames of its key lie within the window ending at it, and the alert reports that number |
| Replay.PruneAllFresh | deauth_detector.py:174-177 | A list of fresh times survives filtering unchanged |
| Replay.NoCooldown | deauth_detector.py:183-184 | After an alert, a further frame of the same key while its recorded frames are fresh raises another alert with one frame more |
| Scenarios.Steps1To3 | deauth_detector.py:160-184 | Two A->B frames and one broadcast frame below the threshold raise no alert |
| Scenarios.Step4 | deauth_detector.py:160-184 | The third A->B frame within 10 s raises a high, targeted alert for 3 frames |
| Scenarios.Step5 | deauth_detector.py:160-184 | A second broadcast frame stays below the threshold |
| Scenarios.Step6 | deauth_detector.py:160-184 | The third broadcast frame within 10 s raises a critical broadcast alert for 3 frames |
| Scenarios.PruneAt11 | deauth_detector.py:174-177 | At instant 11 the A->B times 0, 1, 2 are filtered down to 2 |
| Scenarios.Step7 | deauth_detector.py:160-184 | A fourth A->B frame at 11 leaves the window at {2, 11} and raises no alert |
| Scenarios.Burst | deauth_detector.py:160-184 | The whole burst ends with exactly one targeted and then one broadcast alert, each for 3 frames |
| Scenarios.MostCommonTies | deauth_detector.py:240-241 | Equal counts are listed in insertion order and the list stops at the requested length |
| Scenarios.ExampleMacs | deauth_detector.py:140-143 | In a sample line only the two MAC tokens are extracted, lower-cased |
| Scenarios.ExampleSplit | deauth_detector.py:134-137 | The sample line splits back into its tokens and contains "Deauthentication" |
| Scenarios.ParseExample | deauth_detector.py:134-153 | The sample line parses to a deauthentication event from the first to the second address, with the first as BSSID |
| Scenarios.Demo1To2 | deauth_detector.py:249-272 | The demonstration's first two frames build one key and one entry per counter |
| Scenarios.Demo3 | deauth_detector.py:249-272 | The demonstration's first broadcast frame adds a second key and a second entry per counter |
| Scenarios.Demo4 | deauth_detector.py:249-272 | The demonstration's third A->B frame raises a targeted alert for 3 frames |
| Scenarios.Demo5To6 | deauth_detector.py:249-272 | The demonstration's third broadcast frame raises a broadcast alert for 3 frames |
| Scenarios.Demo7 | deauth_detector.py:249-272 | The demonstration's disassociation frame adds a third key and third entries, with no alert |
| Scenarios.Demo8 | deauth_detector.py:249-272 | The demonstration's last A->B frame raises a third alert, for 4 frames, despite the earlier alert |
| Scenarios.DemoStats | deauth_detector.py:233-242 | The demonstration's final statistics: 8 events, 3 alerts, 3 sources, 3 targets, ranked by count |
| Scenarios.Demo | deauth_detector.py:245-276 | The demonstration raises targeted, broadcast and targeted alerts for 3, 3 and 4 frames and ends with those statistics |

## Left out

- `start_monitor` (the tcpdump subprocess, its blocking read loop and the `running` flag) is process control and I/O, and is not modelled.
- The `interface` setting is not modelled, because only `start_monitor` uses it.
- Console output is not modelled: `print_event`, `print_alert`, `Colors` and `print_banner` only render.
- `main`, argument parsing and the JSON output file are not modelled. `demo_mode`'s printing is left out. Its `sleep` between frames becomes instants 0.5 apart, as if processing took no time. `Scenarios.Demo` replays its event stream.
- The `REASON_CODES` table is not modelled, because no logic reads it.
- The model assumes console output succeeds. In the source, `process_event` prints the event after updating the window and before the threshold check. If that print raises, for example on an encoding error or a closed pipe, the `except Exception: pass` around `parse_frame` swallows it. The frame is then logged, counted and windowed, but its threshold check is skipped. The model always performs the check.
- `time.time()` and `datetime.now()` become parameters. Each step receives `now` as a `real`, and the event timestamp is an opaque string. Floating-point rounding of the clock and of `now - t` is not modelled.
- Parser.Lower: lower-cases ASCII letters only. Python's `str.lower` also maps non-ASCII letters, and some of them to two characters, which would make a stored address longer than 17. Hexadecimal addresses contain no such letters, so the two agree on them.
- Engine.GenerateAlert: its contract does not state the wording of `description`. The body builds the same two fixed templates as the source.
- Engine.GetStats: the unique counts are stated for counters without repeated keys. `Replay.RunDistinct` shows that every detector built by processing events has such counters, and reports their exact number.
- Replay.RunWindows: assumes a clock that never runs backwards along the stream. Without that assumption, a single step is still described exactly by `Engine.ProcessEvent`.
- Replay.ThresholdAlert: assumes a clock that never runs backwards, for the same reason.
- Calling `get_stats` twice with no step in between gives the same result. This holds by construction, because `Engine.GetStats` is a function of the detector alone.
- The `channel` field is always absent, because the parser never fills it in.
- The `frame_type` field is a `str` in the source, and the model narrows it to the two-value `Records.FrameType`. Nothing in the detection step reads it: only `print_event` does, at line 188, to choose an icon and a label.

=== FILE: engine.dfy ===
/**
  The detection engine: the detector's state, the step that consumes one frame
  event, the classification of an alert, and the statistics snapshot.

  The clock is a parameter: each step is given the instant `now` at which it
  runs. A frame is recorded under the key `source->dest`; the key's list of
  frame times gets `now` appended and is then filtered to the times still in
  the window; an alert is raised whenever the filtered list is at least
  `threshold` long. There is no cooldown: every frame that keeps a key at or
  above the threshold raises a further alert.
 */
module Engine {
  import opened Wrappers
  import opened Records
  import opened Frequency
  import Window
  import Parser

  /** The broadcast destination address. */
  const Broadcast: string := "ff:ff:ff:ff:ff:ff"

  /** The number of entries each top list of the statistics holds at most. */
  const TopCount: nat := 5

  /** The threshold a detector gets when none is given: frames per window. */
  const DefaultThreshold: int := 10

  /** The window a detector gets when none is given, in seconds. */
  const DefaultWindow: int := 60

  /**
    The detector: its two settings, the log of every event and every alert,
    the recent frame times per window key, and the per-source and per-target
    frequency tables.
   */
  datatype DeauthDetector = DeauthDetector(
    threshold: int,
    window: int,
    events: seq<DeauthEvent>,
    alerts: seq<Alert>,
    deauthCounts: map<string, seq<real>>,
    sourceCounts: Counter,
    targetCounts: Counter)

  /**
    A fresh detector with the given settings and nothing seen yet; a caller
    that gives none passes `DefaultThreshold` and `DefaultWindow`.
   */
  function NewDetector(threshold: int, window: int): (d: DeauthDetector)
    ensures d.threshold == threshold && d.window == window
    ensures d.events == [] && d.alerts == [] && d.deauthCounts == map[]
    ensures d.sourceCounts == [] && d.targetCounts == []
  {
    DeauthDetector(threshold, window, [], [], map[], [], [])
  }

  /** The text key under which the frame times of one source/destination pair are kept. */
  function WindowKey(source: string, dest: string): (k: string)
    ensures |k| == |source| + 2 + |dest|
    ensures k[..|source|] == source && k[|source|..|source| + 2] == "->" && k[|source| + 2..] == dest
  {
    source + "->" + dest
  }

  /**
    Keys of sources of one length determine the pair they were built from. MAC
    addresses the parser produces are all 17 characters long, so the text key
    never merges two different pairs.
   */
  lemma WindowKeyInjective(s1: string, d1: string, s2: string, d2: string)
    requires |s1| == |s2|
    requires WindowKey(s1, d1) == WindowKey(s2, d2)
    ensures s1 == s2 && d1 == d2
  {
    var k := WindowKey(s1, d1);
    assert k[..|s1|] == s1 && k[|s1| + 2..] == d1;
    assert WindowKey(s2, d2)[..|s2|] == s2 && WindowKey(s2, d2)[|s2| + 2..] == d2;
  }

  /** For addresses of different lengths the text key is not injective. */
  lemma WindowKeyCollision()
    ensures WindowKey("a->b", "c") == WindowKey("a", "b->c")
    ensures "a->b" != "a"
  {
  }

  /** The times kept for a key; a key never seen has none. */
  function History(d: DeauthDetector, key: string): seq<real>
  {
    if key in d.deauthCounts then d.deauthCounts[key] else []
  }

  /**
    The alert for `e` with `count` frames in the window. A frame sent to the
    broadcast address is a critical broadcast attack; any other destination is a
    high-severity targeted attack. The alert copies the event's time, source,
    destination and BSSID.
   */
  function GenerateAlert(e: DeauthEvent, count: int): (a: Alert)
    ensures a.timestamp == e.timestamp && a.bssid == e.bssid
    ensures a.sourceMac == e.sourceMac && a.targetMac == e.destMac
    ensures a.frameCount == count
    ensures a.severity == "critical" <==> e.destMac == Broadcast
    ensures a.attackType == "Broadcast Deauth Attack" <==> e.destMac == Broadcast
    ensures a.severity == "high" <==> e.destMac != Broadcast
    ensures a.attackType == "Targeted Deauth Attack" <==> e.destMac != Broadcast
  {
    if e.destMac == Broadcast then
      Alert(e.timestamp, "critical", "Broadcast Deauth Attack", e.sourceMac, e.destMac,
            e.bssid, count, "Broadcast deauth flood from " + e.sourceMac)
    else
      Alert(e.timestamp, "high", "Targeted Deauth Attack", e.sourceMac, e.destMac,
            e.bssid, count, "Targeted deauth attack: " + e.sourceMac + " \U{2192} " + e.destMac)
  }

  /**
    Consumes one event at instant `now`. The event is logged and counted once
    for its source and once for its destination; the key's time list becomes its
    old contents pruned at `now`, followed by `now` when the window is positive;
    no other key's list changes; an alert, carrying the pruned count, is appended
    exactly when that count reaches the threshold.
   */
  function ProcessEvent(d: DeauthDetector, e: DeauthEvent, now: real): (r: DeauthDetector)
    ensures r.threshold == d.threshold && r.window == d.window
    ensures r.events == d.events + [e]
    ensures Get(r.sourceCounts, e.sourceMac) == Get(d.sourceCounts, e.sourceMac) + 1
    ensures forall k :: k != e.sourceMac ==> Get(r.sourceCounts, k) == Get(d.sourceCounts, k)
    ensures Get(r.targetCounts, e.destMac) == Get(d.targetCounts, e.destMac) + 1
    ensures forall k :: k != e.destMac ==> Get(r.targetCounts, k) == Get(d.targetCounts, k)
    ensures WindowKey(e.sourceMac, e.destMac) in r.deauthCounts
    ensures r.deauthCounts[WindowKey(e.sourceMac, e.destMac)]
         == Window.Prune(History(d, WindowKey(e.sourceMac, e.destMac)), now, d.window)
            + (if d.window > 0 then [now] else [])
    ensures d.window > 0 ==> |r.deauthCounts[WindowKey(e.sourceMac, e.destMac)]| >= 1
    ensures forall k :: k != WindowKey(e.sourceMac, e.destMac) ==>
              (k in r.deauthCounts <==> k in d.deauthCounts) && History(r, k) == History(d, k)
    ensures |r.alerts| == |d.alerts| || |r.alerts| == |d.alerts| + 1
    ensures r.alerts[..|d.alerts|] == d.alerts
    ensures |r.alerts| == |d.alerts| + 1
        <==> |r.deauthCounts[WindowKey(e.sourceMac, e.destMac)]| >= d.threshold
    ensures |r.alerts| == |d.alerts| + 1 ==>
              r.alerts[|d.alerts|] == GenerateAlert(e, |r.deauthCounts[WindowKey(e.sourceMac, e.destMac)]|)
  {
    var key := WindowKey(e.sourceMac, e.destMac);
    var kept := Window.Prune(History(d, key) + [now], now, d.window);
    Window.RecordThenPrune(History(d, key), now, d.window);
    var alerts := if |kept| >= d.threshold then d.alerts + [GenerateAlert(e, |kept|)] else d.alerts;
    d.(events := d.events + [e],
       sourceCounts := Increment(d.sourceCounts, e.sourceMac),
       targetCounts := Increment(d.targetCounts, e.destMac),
       deauthCounts := d.deauthCounts[key := kept],
       alerts := alerts)
  }

  /** The statistics snapshot. */
  datatype Stats = Stats(
    totalEvents: int,
    totalAlerts: int,
    uniqueSources: int,
    uniqueTargets: int,
    topSources: seq<Entry>,
    topTargets: seq<Entry>)

  /**
    The snapshot: totals of the two logs, the number of distinct sources and
    targets, and the five most common of each in non-increasing order of count.
   */
  function GetStats(d: DeauthDetector): (s: Stats)
    ensures s.totalEvents == |d.events| && s.totalAlerts == |d.alerts|
    ensures DistinctKeys(d.sourceCounts) ==> s.uniqueSources == |KeySet(d.sourceCounts)|
    ensures DistinctKeys(d.targetCounts) ==> s.uniqueTargets == |KeySet(d.targetCounts)|
    ensures |s.topSources| == if s.uniqueSources < TopCount then s.uniqueSources else TopCount
    ensures |s.topTargets| == if s.uniqueTargets < TopCount then s.uniqueTargets else TopCount
    ensures forall i, j :: 0 <= i < j < |s.topSources| ==> s.topSources[i].count >= s.topSources[j].count
    ensures forall i, j :: 0 <= i < j < |s.topTargets| ==> s.topTargets[i].count >= s.topTargets[j].count
    ensures forall i :: 0 <= i < |s.topSources| ==> s.topSources[i] in d.sourceCounts
    ensures forall i :: 0 <= i < |s.topTargets| ==> s.topTargets[i] in d.targetCounts
    ensures s.topSources == MostCommon(d.sourceCounts, TopCount)
    ensures s.topTargets == MostCommon(d.targetCounts, TopCount)
  {
    DistinctKeyCount(d.sourceCounts);
    DistinctKeyCount(d.targetCounts);
    Stats(|d.events|, |d.alerts|, |d.sourceCounts|, |d.targetCounts|,
          MostCommon(d.sourceCounts, TopCount), MostCommon(d.targetCounts, TopCount))
  }

  /**
    Handles one captured line at instant `now`, the event stamped `timestamp`.
    A line with fewer than two MAC addresses leaves the detector unchanged;
    any other line is processed as exactly one event built from its addresses.
   */
  function ParseFrame(d: DeauthDetector, line: string, timestamp: string, now: real): (r: DeauthDetector)
    ensures |Parser.ExtractMacs(Parser.Split(line))| < 2 ==> r == d
    ensures |Parser.ExtractMacs(Parser.Split(line))| >= 2 ==>
      && |r.events| == |d.events| + 1
      && r.events[|d.events|].sourceMac == Parser.ExtractMacs(Parser.Split(line))[0]
      && r.events[|d.events|].destMac == Parser.ExtractMacs(Parser.Split(line))[1]
    ensures Parser.ParseLine(line, timestamp).Some? ==>
      r == ProcessEvent(d, Parser.ParseLine(line, timestamp).value, now)
  {
    match Parser.ParseLine(line, timestamp)
    case None => d
    case Some(e) => ProcessEvent(d, e, now)
  }

  /** Two parsed events share a window exactly when they share source and destination. */
  lemma ParsedKeysInjective(l1: string, t1: string, l2: string, t2: string)
    requires Parser.ParseLine(l1, t1).Some? && Parser.ParseLine(l2, t2).Some?
    ensures
      var e1, e2 := Parser.ParseLine(l1, t1).value, Parser.ParseLine(l2, t2).value;
      WindowKey(e1.sourceMac, e1.destMac) == WindowKey(e2.sourceMac, e2.destMac)
      <==> e1.sourceMac == e2.sourceMac && e1.destMac == e2.destMac
  {
    var e1, e2 := Parser.ParseLine(l1, t1).value, Parser.ParseLine(l2, t2).value;
    if WindowKey(e1.sourceMac, e1.destMac) == WindowKey(e2.sourceMac, e2.destMac) {
      WindowKeyInjective(e1.sourceMac, e1.destMac, e2.sourceMac, e2.destMac);
    }
  }
}

=== FILE: frequency.dfy ===
/**
  An insertion-ordered frequency table, as the detector keeps one per source MAC
  and one per target MAC. A key that is missing reads as 0; incrementing a missing
  key appends it at the end; incrementing a present key updates it in place.
  `MostCommon` lists the n largest counts in descending order, with equal counts
  in first-insertion order.
 */
module Frequency {
  import opened Wrappers

  /** One key of a counter with its count. */
  datatype Entry = Entry(key: string, count: int)

  /** A counter: its entries in first-insertion order. */
  type Counter = seq<Entry>

  /** No key appears twice; every counter built by `Increment` keeps this. */
  predicate DistinctKeys(c: Counter)
  {
    forall i, j :: 0 <= i < j < |c| ==> c[i].key != c[j].key
  }

  /** The keys present in the counter. */
  function KeySet(c: Counter): set<string>
  {
    set e | e in c :: e.key
  }

  /** The keys in insertion order. */
  function KeySeq(c: Counter): (ks: seq<string>)
    ensures |ks| == |c|
    ensures forall i :: 0 <= i < |c| ==> ks[i] == c[i].key
  {
    seq(|c|, i requires 0 <= i < |c| => c[i].key)
  }

  /** The count of key `k`; a missing key reads as 0. */
  function Get(c: Counter, k: string): int
  {
    if c == [] then 0
    else if c[0].key == k then c[0].count
    else Get(c[1..], k)
  }

  /** A key the counter does not hold reads as 0, as a missing `Counter` key does. */
  lemma {:induction false} GetMissing(c: Counter, k: string)
    requires k !in KeySet(c)
    ensures Get(c, k) == 0
  {
    if c != [] {
      assert c[0] in c;
      assert KeySet(c[1..]) <= KeySet(c) by {
        forall e | e in c[1..] ensures e in c { }
      }
      GetMissing(c[1..], k);
    }
  }

  /** The sum of all counts. */
  function Sum(c: Counter): int
  {
    if c == [] then 0 else c[0].count + Sum(c[1..])
  }

  lemma KeySetCons(e: Entry, c: Counter)
    ensures KeySet([e] + c) == {e.key} + KeySet(c)
  {
    assert forall x :: x in [e] + c <==> x == e || x in c;
  }

  /** The counter after `k` was seen once more. */
  function Increment(c: Counter, k: string): (r: Counter)
    ensures Get(r, k) == Get(c, k) + 1
    ensures forall k' :: k' != k ==> Get(r, k') == Get(c, k')
    ensures |r| == |c| || |r| == |c| + 1
    ensures forall i :: 0 <= i < |c| ==> r[i].key == c[i].key
    ensures |r| == |c| + 1 ==> r[|c|] == Entry(k, 1)
  {
    if c == [] then
      [Entry(k, 1)]
    else if c[0].key == k then
      [Entry(k, c[0].count + 1)] + c[1..]
    else
      [c[0]] + Increment(c[1..], k)
  }

  /** Incrementing looks at the first entry, then at the rest. */
  lemma IncrementCons(e: Entry, c: Counter, k: string)
    ensures Increment([e] + c, k)
         == if e.key == k then [Entry(k, e.count + 1)] + c else [e] + Increment(c, k)
  {
    assert ([e] + c)[1..] == c;
  }

  /** Incrementing adds exactly one to the total. */
  lemma {:induction false} IncrementSum(c: Counter, k: string)
    ensures Sum(Increment(c, k)) == Sum(c) + 1
  {
    if c != [] && c[0].key != k {
      IncrementSum(c[1..], k);
    }
  }

  /** Incrementing adds `k` to the keys and no other key. */
  lemma {:induction false} IncrementKeys(c: Counter, k: string)
    ensures KeySet(Increment(c, k)) == KeySet(c) + {k}
  {
    if c != [] {
      var r := Increment(c, k);
      KeySetCons(c[0], c[1..]);
      assert c == [c[0]] + c[1..];
      if c[0].key == k {
        assert r == [Entry(k, c[0].count + 1)] + c[1..];
        KeySetCons(Entry(k, c[0].count + 1), c[1..]);
      } else {
        var rest := Increment(c[1..], k);
        assert r == [c[0]] + rest;
        IncrementKeys(c[1..], k);
        KeySetCons(c[0], rest);
      }
    }
  }

  /** Incrementing appends an entry exactly when `k` was missing. */
  lemma {:induction false} IncrementGrows(c: Counter, k: string)
    ensures |Increment(c, k)| == if k in KeySet(c) then |c| else |c| + 1
  {
    if c != [] {
      KeySetCons(c[0], c[1..]);
      assert c == [c[0]] + c[1..];
      if c[0].key != k {
        IncrementGrows(c[1..], k);
      }
    }
  }

  /** Incrementing never introduces a duplicate key. */
  lemma {:induction false} IncrementDistinct(c: Counter, k: string)
    requires DistinctKeys(c)
    ensures DistinctKeys(Increment(c, k))
  {
    var r := Increment(c, k);
    IncrementKeys(c, k);
    IncrementGrows(c, k);
    if |r| == |c| + 1 {
      assert k !in KeySet(c);
      forall i, j | 0 <= i < j < |r|
        ensures r[i].key != r[j].key
      {
        if j == |c| {
          assert c[i] in c;
        }
      }
    }
  }

  /** The counter after seeing each of `xs` in order, starting from `c`. */
  function Tally(c: Counter, xs: seq<string>): Counter
    decreases |xs|
  {
    if xs == [] then c else Increment(Tally(c, xs[..|xs| - 1]), xs[|xs| - 1])
  }

  /** Every key is counted exactly as often as it occurs in the input. */
  lemma {:induction false} TallyGet(c: Counter, xs: seq<string>, k: string)
    ensures Get(Tally(c, xs), k) == Get(c, k) + multiset(xs)[k]
  {
    if xs != [] {
      var init, last := xs[..|xs| - 1], xs[|xs| - 1];
      assert xs == init + [last];
      TallyGet(c, init, k);
    }
  }

  /** The counts of a tally add up to the length of the input. */
  lemma {:induction false} TallySum(c: Counter, xs: seq<string>)
    ensures Sum(Tally(c, xs)) == Sum(c) + |xs|
  {
    if xs != [] {
      TallySum(c, xs[..|xs| - 1]);
      IncrementSum(Tally(c, xs[..|xs| - 1]), xs[|xs| - 1]);
    }
  }

  /** The keys of a tally are the starting keys plus the values of the input. */
  lemma {:induction false} TallyKeys(c: Counter, xs: seq<string>)
    ensures forall k :: k in KeySet(Tally(c, xs)) <==> k in KeySet(c) || k in xs
  {
    if xs != [] {
      var init, last := xs[..|xs| - 1], xs[|xs| - 1];
      var t := Tally(c, init);
      assert KeySet(Tally(c, xs)) == KeySet(t) + {last} by {
        assert Tally(c, xs) == Increment(t, last);
        IncrementKeys(t, last);
      }
      TallyKeys(c, init);
      assert xs == init + [last];
      KeysGrow(KeySet(c), KeySet(t), KeySet(Tally(c, xs)), init, last);
    }
  }

  /** One more value adds its key to a key set that already held the earlier values. */
  lemma KeysGrow(start: set<string>, before: set<string>, after: set<string>, init: seq<string>, last: string)
    requires forall k :: k in before <==> k in start || k in init
    requires after == before + {last}
    ensures forall k :: k in after <==> k in start || k in init + [last]
  {
    forall k
      ensures k in after <==> k in start || k in init + [last]
    {
      assert k in init + [last] <==> k in init || k == last;
    }
  }

  /** A tally never holds a key twice. */
  lemma {:induction false} TallyDistinct(c: Counter, xs: seq<string>)
    requires DistinctKeys(c)
    ensures DistinctKeys(Tally(c, xs))
  {
    if xs != [] {
      TallyDistinct(c, xs[..|xs| - 1]);
      IncrementDistinct(Tally(c, xs[..|xs| - 1]), xs[|xs| - 1]);
    }
  }

  /** The distinct values of `xs`, each at the place of its first occurrence. */
  function Dedup(xs: seq<string>): (r: seq<string>)
    decreases |xs|
  {
    if xs == [] then []
    else
      var init, last := xs[..|xs| - 1], xs[|xs| - 1];
      if last in init then Dedup(init) else Dedup(init) + [last]
  }

  /** Incrementing keeps the key order and appends a missing key at the end. */
  lemma KeySeqIncrement(c: Counter, k: string)
    ensures KeySeq(Increment(c, k)) == if k in KeySet(c) then KeySeq(c) else KeySeq(c) + [k]
  {
    var r := Increment(c, k);
    IncrementKeys(c, k);
    IncrementGrows(c, k);
    if k in KeySet(c) {
      assert |r| == |c|;
      assert forall i :: 0 <= i < |c| ==> KeySeq(r)[i] == KeySeq(c)[i];
    } else {
      assert |r| == |c| + 1;
      assert r[|c|] == Entry(k, 1);
      assert forall i :: 0 <= i < |r| ==> KeySeq(r)[i] == (KeySeq(c) + [k])[i];
    }
  }

  /** A tally from empty lists its keys in order of first occurrence in the input. */
  lemma {:induction false} TallyOrder(xs: seq<string>)
    ensures KeySeq(Tally([], xs)) == Dedup(xs)
  {
    if xs != [] {
      var init, last := xs[..|xs| - 1], xs[|xs| - 1];
      var t := Tally([], init);
      assert Tally([], xs) == Increment(t, last);
      assert Dedup(xs) == if last in init then Dedup(init) else Dedup(init) + [last];
      TallyOrder(init);
      TallyKeys([], init);
      assert last in KeySet(t) <==> last in init;
      KeySeqIncrement(t, last);
    }
  }

  /** With distinct keys there are exactly as many keys as entries. */
  lemma {:induction false} DistinctKeyCount(c: Counter)
    ensures DistinctKeys(c) ==> |KeySet(c)| == |c|
  {
    if DistinctKeys(c) && c != [] {
      KeySetCons(c[0], c[1..]);
      assert [c[0]] + c[1..] == c;
      DistinctKeyCount(c[1..]);
    }
  }

  /**
    The order `MostCommon` lists entries in: a larger count first, and among
    equal counts the entry inserted earlier first. It is a strict total order
    on the positions of a counter.
   */
  predicate Precedes(c: Counter, i: int, j: int)
    requires 0 <= i < |c| && 0 <= j < |c|
  {
    c[i].count > c[j].count || (c[i].count == c[j].count && i < j)
  }

  /** The first position, among those at `lo` or later that are not `taken`, that precedes all others. */
  function Best(c: Counter, taken: set<int>, lo: nat): (r: Option<int>)
    requires lo <= |c|
    decreases |c| - lo
    ensures r.Some? ==> lo <= r.value < |c| && r.value !in taken
    ensures r.Some? ==>
      forall j :: lo <= j < |c| && j !in taken && j != r.value ==> Precedes(c, r.value, j)
    ensures r.None? ==> forall j :: lo <= j < |c| ==> j in taken
  {
    if lo == |c| then None
    else
      var rest := Best(c, taken, lo + 1);
      if lo in taken then rest
      else if rest.None? || c[lo].count >= c[rest.value].count then Some(lo)
      else rest
  }

  /** The values of a sequence of positions, as a set. */
  function Elems(s: seq<int>): (r: set<int>)
    ensures forall x :: x in r <==> x in s
  {
    set x | x in s
  }

  /** Up to `n` further positions, not in `taken`, chosen best-first. */
  function Top(c: Counter, n: nat, taken: seq<int>): (r: seq<int>)
    decreases n
    ensures |r| <= n
    ensures forall i :: 0 <= i < |r| ==> 0 <= r[i] < |c| && r[i] !in taken
    ensures forall i, j :: 0 <= i < j < |r| ==> Precedes(c, r[i], r[j])
    ensures forall i, j :: 0 <= i < |r| && 0 <= j < |c| && j !in taken && j !in r ==> Precedes(c, r[i], j)
    ensures |r| < n ==> forall j :: 0 <= j < |c| ==> j in taken || j in r
  {
    if n == 0 then []
    else
      match Best(c, Elems(taken), 0)
      case None => []
      case Some(k) => [k] + Top(c, n - 1, taken + [k])
  }

  /** A sequence of positions below `m` without repeats is no longer than `m`; it is exactly `m` long when it covers them all. */
  lemma {:induction false} PositionsBound(r: seq<int>, m: nat)
    requires forall i :: 0 <= i < |r| ==> 0 <= r[i] < m
    requires forall i, j :: 0 <= i < j < |r| ==> r[i] != r[j]
    ensures |r| <= m
    ensures (forall j :: 0 <= j < m ==> j in r) ==> |r| == m
  {
    var elems := set x | x in r;
    var range := Below(m);
    DistinctCard(r);
    assert elems <= range;
    SubsetCard(elems, range);
    if forall j :: 0 <= j < m ==> j in r {
      assert range == elems;
    }
  }

  lemma SubsetCard(a: set<int>, b: set<int>)
    requires a <= b
    ensures |a| <= |b|
  {
    assert b == a + (b - a);
  }

  lemma {:induction false} DistinctCard(r: seq<int>)
    requires forall i, j :: 0 <= i < j < |r| ==> r[i] != r[j]
    ensures |set x | x in r| == |r|
  {
    if r != [] {
      DistinctCard(r[1..]);
      assert (set x | x in r) == {r[0]} + (set x | x in r[1..]);
      assert r[0] !in (set x | x in r[1..]);
    }
  }

  /** The naturals below `m`. */
  function Below(m: nat): (r: set<int>)
    ensures forall j :: j in r <==> 0 <= j < m
    ensures |r| == m
  {
    if m == 0 then {} else Below(m - 1) + {m - 1}
  }

  /**
    The positions of the `n` most common entries, best first: as many as `n`
    allows, each preceding the next, and each preceding every position left out.
   */
  function TopPositions(c: Counter, n: nat): (r: seq<int>)
    ensures |r| == if n < |c| then n else |c|
    ensures forall i :: 0 <= i < |r| ==> 0 <= r[i] < |c|
    ensures forall i, j :: 0 <= i < j < |r| ==> Precedes(c, r[i], r[j])
    ensures forall i, j :: 0 <= i < |r| && 0 <= j < |c| && j !in r ==> Precedes(c, r[i], j)
  {
    var r := Top(c, n, []);
    PositionsBound(r, |c|);
    r
  }

  /**
    The `n` most common entries with their counts, in non-increasing order of
    count; every entry left out has a count no larger than any listed one.
    Equal counts keep insertion order, as `TopPositions` states.
   */
  function MostCommon(c: Counter, n: nat): (r: seq<Entry>)
    ensures |r| == if n < |c| then n else |c|
    ensures forall i :: 0 <= i < |r| ==> r[i] in c
    ensures forall i, j :: 0 <= i < j < |r| ==> r[i].count >= r[j].count
    ensures forall i :: 0 <= i < |r| ==> r[i] == c[TopPositions(c, n)[i]]
    ensures forall i, j :: 0 <= i < |r| && 0 <= j < |c| && c[j] !in r ==> c[j].count <= r[i].count
  {
    var p := TopPositions(c, n);
    var r := seq(|p|, i requires 0 <= i < |p| => c[p[i]]);
    assert forall j :: 0 <= j < |c| && c[j] !in r ==> j !in p by {
      forall j | 0 <= j < |c| && j in p
        ensures c[j] in r
      {
        var i :| 0 <= i < |p| && p[i] == j;
        assert r[i] == c[j];
      }
    }
    r
  }

  /**
    A counter whose counts are already in non-increasing order is listed as it
    stands: ranking never reorders entries of equal count.
   */
  lemma MostCommonOfSorted(c: Counter, n: nat)
    requires forall i, j :: 0 <= i < j < |c| ==> c[i].count >= c[j].count
    ensures MostCommon(c, n) == c[..if n < |c| then n else |c|]
  {
    var p := TopPositions(c, n);
    assert forall i, j :: 0 <= i < j < |p| ==> p[i] < p[j] by {
      forall i, j | 0 <= i < j < |p|
        ensures p[i] < p[j]
      {
        assert Precedes(c, p[i], p[j]);
      }
    }
    assert forall i, j :: 0 <= i < |p| && 0 <= j < |c| && j !in p ==> p[i] < j by {
      forall i, j | 0 <= i < |p| && 0 <= j < |c| && j !in p
        ensures p[i] < j
      {
        assert Precedes(c, p[i], j);
      }
    }
    forall i | 0 <= i < |p|
      ensures p[i] == i
    {
      RankIdentity(p, |c|, i);
    }
  }

  /**
    Increasing positions below `m` such that every position left out lies above
    all of them are exactly 0, 1, 2, ...
   */
  lemma {:induction false} RankIdentity(p: seq<int>, m: nat, i: nat)
    requires forall a, b :: 0 <= a < b < |p| ==> p[a] < p[b]
    requires forall a :: 0 <= a < |p| ==> 0 <= p[a] < m
    requires forall a, j :: 0 <= a < |p| && 0 <= j < m && j !in p ==> p[a] < j
    requires i < |p|
    ensures p[i] == i
    decreases i
  {
    forall k | 0 <= k < i
      ensures p[k] == k
    {
      RankIdentity(p, m, k);
    }
    assert i > 0 ==> p[i] > p[i - 1];
    assert p[i] >= i;
    assert i < m;
    assert i in p ==> p[i] == i;
  }
}

=== FILE: parser.dfy ===
/**
  The frame-line parser that feeds the detector. A captured text line is split
  on whitespace; every token of exactly 17 characters holding exactly five ':'
  is taken, lower-cased, as a MAC address, in order of appearance. With at least
  two of them the line yields an event: the first is the source, the second the
  destination, the third (or the first again when there is no third) the BSSID.
  The frame is a deauthentication when the line mentions "Deauthentication"
  and a disassociation otherwise; the reason code is always 0.
 */
module Parser {
  import opened Wrappers
  import opened Records

  /** Whitespace as Python's `str.split()` with no separator understands it. */
  predicate IsSpace(ch: char)
  {
    || ('\t' <= ch <= '\r')
    || ('\U{1C}' <= ch <= ' ')
    || ch == '\U{85}' || ch == '\U{A0}' || ch == '\U{1680}'
    || ('\U{2000}' <= ch <= '\U{200A}')
    || ch == '\U{2028}' || ch == '\U{2029}' || ch == '\U{202F}' || ch == '\U{205F}'
    || ch == '\U{3000}'
  }

  /** A token: non-empty and free of whitespace. */
  predicate IsWord(w: string)
  {
    w != [] && forall i :: 0 <= i < |w| ==> !IsSpace(w[i])
  }

  /** The length of the run of non-whitespace characters at the start of `s`. */
  function WordLength(s: string): (n: nat)
    ensures n <= |s|
    ensures forall i :: 0 <= i < n ==> !IsSpace(s[i])
    ensures n < |s| ==> IsSpace(s[n])
  {
    if s == [] || IsSpace(s[0]) then 0 else 1 + WordLength(s[1..])
  }

  /** The maximal runs of non-whitespace characters of `s`, in order. */
  function Split(s: string): (ts: seq<string>)
    decreases |s|
    ensures forall i :: 0 <= i < |ts| ==> IsWord(ts[i])
  {
    if s == [] then []
    else if IsSpace(s[0]) then Split(s[1..])
    else
      var n := WordLength(s);
      [s[..n]] + Split(s[n..])
  }

  /** Tokens joined with single spaces. */
  function Join(ts: seq<string>): string
  {
    if ts == [] then ""
    else if |ts| == 1 then ts[0]
    else ts[0] + " " + Join(ts[1..])
  }

  /** Splitting a line made of tokens joined by spaces gives the tokens back. */
  lemma {:induction false} SplitJoin(ts: seq<string>)
    requires forall i :: 0 <= i < |ts| ==> IsWord(ts[i])
    ensures Split(Join(ts)) == ts
  {
    if ts != [] {
      var w := ts[0];
      SplitWord(w, if |ts| == 1 then "" else " " + Join(ts[1..]));
      if |ts| > 1 {
        var rest := " " + Join(ts[1..]);
        assert Join(ts) == w + rest;
        assert rest[1..] == Join(ts[1..]);
        SplitJoin(ts[1..]);
      } else {
        assert Join(ts) == w + "";
      }
    }
  }

  /** A word followed by nothing or by whitespace is split off as one token. */
  lemma {:induction false} SplitWord(w: string, rest: string)
    requires IsWord(w)
    requires rest == [] || IsSpace(rest[0])
    ensures Split(w + rest) == [w] + Split(rest)
  {
    WordLengthOf(w, rest);
    assert (w + rest)[..|w|] == w;
    assert (w + rest)[|w|..] == rest;
  }

  /** Whitespace in front of a line is skipped: it contributes no token. */
  lemma SplitSpace(c: char, s: string)
    requires IsSpace(c)
    ensures Split([c] + s) == Split(s)
  {
    assert ([c] + s)[1..] == s;
  }

  /**
    Whitespace at the end of a line contributes no token either, so the line
    terminator a line is read with leaves its tokens unchanged.
   */
  lemma {:induction false} SplitTrailingSpace(s: string, c: char)
    requires IsSpace(c)
    ensures Split(s + [c]) == Split(s)
    decreases |s|
  {
    if s == [] {
      assert Split([c]) == Split([c][1..]);
    } else if IsSpace(s[0]) {
      assert (s + [c])[1..] == s[1..] + [c];
      SplitTrailingSpace(s[1..], c);
    } else {
      var n := WordLength(s);
      WordLengthOf(s[..n], s[n..] + [c]);
      assert s[..n] + (s[n..] + [c]) == s + [c];
      assert (s + [c])[..n] == s[..n];
      assert (s + [c])[n..] == s[n..] + [c];
      SplitTrailingSpace(s[n..], c);
    }
  }

  lemma {:induction false} WordLengthOf(w: string, rest: string)
    requires forall i :: 0 <= i < |w| ==> !IsSpace(w[i])
    requires rest == [] || IsSpace(rest[0])
    ensures WordLength(w + rest) == |w|
  {
    if w != [] {
      assert (w + rest)[1..] == w[1..] + rest;
      WordLengthOf(w[1..], rest);
    } else {
      assert w + rest == rest;
    }
  }

  /** ASCII upper-case letters become lower-case; every other character is unchanged. */
  function LowerChar(ch: char): char
  {
    if 'A' <= ch <= 'Z' then (ch as int - 'A' as int + 'a' as int) as char else ch
  }

  /** The string with every ASCII letter lower-cased. */
  function Lower(s: string): (r: string)
    ensures |r| == |s|
    ensures forall i :: 0 <= i < |s| ==> r[i] == LowerChar(s[i])
  {
    seq(|s|, i requires 0 <= i < |s| => LowerChar(s[i]))
  }

  /** Lower-casing keeps every ':' and creates none, so the colon count is unchanged. */
  lemma {:induction false} LowerColons(s: string)
    ensures multiset(Lower(s))[':'] == multiset(s)[':']
  {
    if s != [] {
      var h, t := s[0], s[1..];
      LowerColons(t);
      assert multiset(Lower(s)) == multiset{LowerChar(h)} + multiset(Lower(t)) by {
        assert Lower(s) == [LowerChar(h)] + Lower(t);
      }
      assert multiset(s) == multiset{h} + multiset(t) by {
        assert s == [h] + t;
      }
      assert LowerChar(h) == ':' <==> h == ':';
    }
  }

  /** Lower-casing twice is lower-casing once. */
  lemma LowerIdempotent(s: string)
    ensures Lower(Lower(s)) == Lower(s)
  {
  }

  /** A token is taken as a MAC address exactly when it has 17 characters, five of them ':'. */
  predicate IsMacToken(t: string)
  {
    |t| == 17 && multiset(t)[':'] == 5
  }

  /** A MAC address as the parser stores it: a MAC token already in lower case. */
  predicate IsStoredMac(m: string)
  {
    IsMacToken(m) && Lower(m) == m
  }

  /** The lower-cased MAC tokens among `ts`, in their order. */
  function ExtractMacs(ts: seq<string>): (macs: seq<string>)
    ensures |macs| <= |ts|
  {
    if ts == [] then []
    else (if IsMacToken(ts[0]) then [Lower(ts[0])] else []) + ExtractMacs(ts[1..])
  }

  /** Every extracted address is a 17-character, five-colon, lower-case MAC. */
  lemma {:induction false} ExtractedAreStored(ts: seq<string>)
    ensures forall i :: 0 <= i < |ExtractMacs(ts)| ==> IsStoredMac(ExtractMacs(ts)[i])
  {
    if ts != [] {
      ExtractedAreStored(ts[1..]);
      LowerColons(ts[0]);
      LowerIdempotent(ts[0]);
    }
  }

  /** Extraction distributes over concatenation: MACs keep their order of appearance. */
  lemma {:induction false} ExtractMacsAppend(a: seq<string>, b: seq<string>)
    ensures ExtractMacs(a + b) == ExtractMacs(a) + ExtractMacs(b)
  {
    if a != [] {
      assert (a + b)[1..] == a[1..] + b;
      ExtractMacsAppend(a[1..], b);
    } else {
      assert a + b == b;
    }
  }

  /** Extraction looks at the first token, then at the rest. */
  lemma ExtractMacsCons(t: string, rest: seq<string>)
    ensures ExtractMacs([t] + rest) == (if IsMacToken(t) then [Lower(t)] else []) + ExtractMacs(rest)
  {
    assert ([t] + rest)[1..] == rest;
  }

  /** One token yields its lower-cased self when it is a MAC token and nothing otherwise. */
  lemma ExtractMacsSingle(t: string)
    ensures ExtractMacs([t]) == if IsMacToken(t) then [Lower(t)] else []
  {
    assert [t][1..] == [];
  }

  /**
    A token's lower-cased form is extracted exactly when the token is a MAC
    token, and every extracted address comes from such a token.
   */
  lemma {:induction false} ExtractMacsMembers(ts: seq<string>)
    ensures forall t :: t in ts && IsMacToken(t) ==> Lower(t) in ExtractMacs(ts)
    ensures forall m :: m in ExtractMacs(ts) ==> exists t :: t in ts && IsMacToken(t) && Lower(t) == m
  {
    if ts != [] {
      ExtractMacsMembers(ts[1..]);
      var head := if IsMacToken(ts[0]) then [Lower(ts[0])] else [];
      assert ExtractMacs(ts) == head + ExtractMacs(ts[1..]);
      forall m | m in ExtractMacs(ts)
        ensures exists t :: t in ts && IsMacToken(t) && Lower(t) == m
      {
        if m in head {
          assert ts[0] in ts;
        } else {
          var t :| t in ts[1..] && IsMacToken(t) && Lower(t) == m;
          assert t in ts;
        }
      }
    }
  }

  /**
    The first extracted address comes from the first MAC token, and the rest
    from the tokens after it.
   */
  lemma {:induction false} ExtractMacsFirst(ts: seq<string>, i: nat)
    requires i < |ts| && IsMacToken(ts[i])
    requires forall j :: 0 <= j < i ==> !IsMacToken(ts[j])
    ensures ExtractMacs(ts) == [Lower(ts[i])] + ExtractMacs(ts[i + 1..])
  {
    if i > 0 {
      ExtractMacsFirst(ts[1..], i - 1);
      assert ts[1..][i..] == ts[i + 1..];
    }
  }

  /** True when `p` occurs in `s` starting at position 0 or later. */
  predicate Contains(s: string, p: string)
    decreases |s|
  {
    if |s| < |p| then false
    else if s[..|p|] == p then true
    else |s| > 0 && Contains(s[1..], p)
  }

  /** True when `p` occurs in `s` at position `i`. */
  predicate OccursAt(s: string, p: string, i: int)
  {
    0 <= i <= |s| - |p| && s[i..i + |p|] == p
  }

  /** `Contains` is substring search: `p` occurs at some position of `s`. */
  lemma {:induction false} ContainsIff(s: string, p: string)
    ensures Contains(s, p) <==> exists i :: OccursAt(s, p, i)
  {
    if |s| >= |p| && s[..|p|] != p && |s| > 0 {
      ContainsIff(s[1..], p);
      if exists i :: OccursAt(s, p, i) {
        var i :| OccursAt(s, p, i);
        assert i > 0;
        assert OccursAt(s[1..], p, i - 1);
      }
      if Contains(s[1..], p) {
        var i :| OccursAt(s[1..], p, i);
        assert OccursAt(s, p, i + 1);
      }
    } else if |s| >= |p| && s[..|p|] == p {
      assert OccursAt(s, p, 0);
    } else if |s| < |p| {
      assert forall i :: !OccursAt(s, p, i);
    }
  }

  /** The text whose presence marks a deauthentication frame. */
  const DeauthMarker: string := "Deauthentication"

  /** The frame kind of a line. */
  function FrameTypeOf(line: string): (f: FrameType)
    ensures f == Deauth <==> Contains(line, DeauthMarker)
    ensures f == Disassoc <==> !Contains(line, DeauthMarker)
    ensures FrameTypeName(f) == if Contains(line, DeauthMarker) then "deauth" else "disassoc"
  {
    if Contains(line, DeauthMarker) then Deauth else Disassoc
  }

  /**
    The event a captured line describes, stamped with `timestamp`; none when the
    line holds fewer than two MAC addresses.
   */
  function ParseLine(line: string, timestamp: string): (r: Option<DeauthEvent>)
    ensures r.None? <==> |ExtractMacs(Split(line))| < 2
    ensures r.Some? ==>
      && r.value.timestamp == timestamp
      && IsStoredMac(r.value.sourceMac) && IsStoredMac(r.value.destMac) && IsStoredMac(r.value.bssid)
      && r.value.reasonCode == 0 && r.value.channel == None
      && (r.value.frameType == Deauth <==> Contains(line, DeauthMarker))
    ensures r.Some? ==>
      var macs := ExtractMacs(Split(line));
      && r.value.sourceMac == macs[0] && r.value.destMac == macs[1]
      && r.value.bssid == (if |macs| > 2 then macs[2] else macs[0])
  {
    var macs := ExtractMacs(Split(line));
    ExtractedAreStored(Split(line));
    if |macs| >= 2 then
      Some(DeauthEvent(
        timestamp := timestamp,
        sourceMac := macs[0],
        destMac := macs[1],
        bssid := if |macs| > 2 then macs[2] else macs[0],
        frameType := FrameTypeOf(line),
        reasonCode := 0,
        channel := None))
    else
      None
  }
}

=== FILE: records.dfy ===
/**
  The two immutable records of the detector: one observed deauthentication or
  disassociation frame, and one attack alert raised from a burst of them.
 */
module Records {
  import opened Wrappers

  /** The two management-frame kinds the capture filter lets through. */
  datatype FrameType = Deauth | Disassoc

  /** The tag the detector writes for each frame kind. */
  function FrameTypeName(f: FrameType): string
  {
    match f
    case Deauth => "deauth"
    case Disassoc => "disassoc"
  }

  /**
    One observed frame. `timestamp` is the wall-clock instant rendered as text,
    treated here as an opaque string; `channel` is never filled in.
   */
  datatype DeauthEvent = DeauthEvent(
    timestamp: string,
    sourceMac: string,
    destMac: string,
    bssid: string,
    frameType: FrameType,
    reasonCode: int,
    channel: Option<int>)

  /** One alert; `frameCount` is the number of frames in the window that raised it. */
  datatype Alert = Alert(
    timestamp: string,
    severity: string,
    attackType: string,
    sourceMac: string,
    targetMac: string,
    bssid: string,
    frameCount: int,
    description: string)
}

=== FILE: replay.dfy ===
/**
  Properties of the detector over a whole stream of frames: the logs and the
  frequency tables follow the stream exactly, each window list holds exactly
  the recent times of its key, and an alert is raised on a frame exactly when
  its key has at least `threshold` frames in the window ending at that frame.
 */
module Replay {
  import opened Records
  import opened Frequency
  import opened Engine
  import Window

  /** One frame handed to the detector, with the instant it is processed at. */
  datatype Arrival = Arrival(event: DeauthEvent, now: real)

  /** The detector after processing `xs` in order, starting from `d`. */
  function Run(d: DeauthDetector, xs: seq<Arrival>): DeauthDetector
    decreases |xs|
  {
    if xs == [] then d
    else ProcessEvent(Run(d, xs[..|xs| - 1]), xs[|xs| - 1].event, xs[|xs| - 1].now)
  }

  /** The events of a stream. */
  function Events(xs: seq<Arrival>): (es: seq<DeauthEvent>)
    ensures |es| == |xs| && forall i :: 0 <= i < |xs| ==> es[i] == xs[i].event
  {
    seq(|xs|, i requires 0 <= i < |xs| => xs[i].event)
  }

  lemma EventsSnoc(xs: seq<Arrival>)
    requires xs != []
    ensures Events(xs) == Events(xs[..|xs| - 1]) + [xs[|xs| - 1].event]
  {
    var l, r := Events(xs), Events(xs[..|xs| - 1]) + [xs[|xs| - 1].event];
    assert |l| == |r|;
    forall i | 0 <= i < |l|
      ensures l[i] == r[i]
    {
    }
  }

  /** The source addresses of a stream. */
  function Sources(xs: seq<Arrival>): (ss: seq<string>)
    ensures |ss| == |xs| && forall i :: 0 <= i < |xs| ==> ss[i] == xs[i].event.sourceMac
  {
    seq(|xs|, i requires 0 <= i < |xs| => xs[i].event.sourceMac)
  }

  /** The destination addresses of a stream. */
  function Targets(xs: seq<Arrival>): (ts: seq<string>)
    ensures |ts| == |xs| && forall i :: 0 <= i < |xs| ==> ts[i] == xs[i].event.destMac
  {
    seq(|xs|, i requires 0 <= i < |xs| => xs[i].event.destMac)
  }

  /** The window key of an arrival. */
  function KeyOf(a: Arrival): string
  {
    WindowKey(a.event.sourceMac, a.event.destMac)
  }

  /** The instants of the arrivals under `key`, in stream order. */
  function KeyTimes(xs: seq<Arrival>, key: string): seq<real>
    decreases |xs|
  {
    if xs == [] then []
    else
      var rest := KeyTimes(xs[..|xs| - 1], key);
      if KeyOf(xs[|xs| - 1]) == key then rest + [xs[|xs| - 1].now] else rest
  }

  /** The clock never runs backwards along the stream. */
  predicate Monotone(xs: seq<Arrival>)
  {
    forall i, j :: 0 <= i < j < |xs| ==> xs[i].now <= xs[j].now
  }

  /** The settings never change and the event log is the stream. */
  lemma {:induction false} RunEvents(d: DeauthDetector, xs: seq<Arrival>)
    ensures Run(d, xs).threshold == d.threshold && Run(d, xs).window == d.window
    ensures Run(d, xs).events == d.events + Events(xs)
  {
    if xs != [] {
      var init, a := xs[..|xs| - 1], xs[|xs| - 1];
      RunEvents(d, init);
      var before := Run(d, init);
      assert Run(d, xs) == ProcessEvent(before, a.event, a.now);
      assert Run(d, xs).events == before.events + [a.event];
      EventsSnoc(xs);
      assert d.events + Events(init) + [a.event] == d.events + (Events(init) + [a.event]);
    }
  }

  /** The frequency tables are the tallies of the stream's sources and targets. */
  lemma {:induction false} RunCounters(d: DeauthDetector, xs: seq<Arrival>)
    ensures Run(d, xs).sourceCounts == Tally(d.sourceCounts, Sources(xs))
    ensures Run(d, xs).targetCounts == Tally(d.targetCounts, Targets(xs))
  {
    if xs != [] {
      var init := xs[..|xs| - 1];
      RunCounters(d, init);
      assert Sources(xs)[..|xs| - 1] == Sources(init);
      assert Targets(xs)[..|xs| - 1] == Targets(init);
    }
  }

  /** The alert log only grows, by at most one alert per frame. */
  lemma {:induction false} RunAlerts(d: DeauthDetector, xs: seq<Arrival>)
    ensures |d.alerts| <= |Run(d, xs).alerts| <= |d.alerts| + |xs|
    ensures Run(d, xs).alerts[..|d.alerts|] == d.alerts
  {
    if xs != [] {
      var init := xs[..|xs| - 1];
      RunAlerts(d, init);
      var before := Run(d, init);
      var after := Run(d, xs);
      assert after.alerts[..|before.alerts|] == before.alerts;
      assert after.alerts[..|d.alerts|] == before.alerts[..|d.alerts|];
    }
  }

  /**
    From a fresh detector: the statistics count every frame, each frequency
    table sums to the number of frames, and each table counts every address
    exactly as often as it occurs in the stream.
   */
  lemma RunCounts(threshold: int, window: int, xs: seq<Arrival>)
    ensures var d := Run(NewDetector(threshold, window), xs);
      && GetStats(d).totalEvents == |xs|
      && Sum(d.sourceCounts) == |xs| && Sum(d.targetCounts) == |xs|
      && (forall k :: Get(d.sourceCounts, k) == multiset(Sources(xs))[k])
      && (forall k :: Get(d.targetCounts, k) == multiset(Targets(xs))[k])
  {
    RunEvents(NewDetector(threshold, window), xs);
    RunCounters(NewDetector(threshold, window), xs);
    TallyFacts(Sources(xs));
    TallyFacts(Targets(xs));
  }

  /**
    From a fresh detector: each frequency table lists the addresses in order
    of first occurrence, and the statistics report one unique address per
    distinct address of the stream.
   */
  lemma RunDistinct(threshold: int, window: int, xs: seq<Arrival>)
    ensures var d := Run(NewDetector(threshold, window), xs);
      && KeySeq(d.sourceCounts) == Dedup(Sources(xs))
      && KeySeq(d.targetCounts) == Dedup(Targets(xs))
      && GetStats(d).uniqueSources == |set s | s in Sources(xs)|
      && GetStats(d).uniqueTargets == |set t | t in Targets(xs)|
  {
    RunCounters(NewDetector(threshold, window), xs);
    TallyFacts(Sources(xs));
    TallyFacts(Targets(xs));
  }

  /** The facts about a tally from empty that the statistics rely on. */
  lemma TallyFacts(xs: seq<string>)
    ensures Sum(Tally([], xs)) == |xs|
    ensures forall k :: Get(Tally([], xs), k) == multiset(xs)[k]
    ensures KeySeq(Tally([], xs)) == Dedup(xs)
    ensures DistinctKeys(Tally([], xs))
    ensures |Tally([], xs)| == |set x | x in xs|
  {
    var c := Tally([], xs);
    TallySum([], xs);
    forall k
      ensures Get(c, k) == multiset(xs)[k]
    {
      TallyGet([], xs, k);
    }
    TallyOrder(xs);
    TallyDistinct([], xs);
    TallyKeys([], xs);
    DistinctKeyCount(c);
    assert KeySet(c) == set x | x in xs;
  }

  /** Dropping the last arrival keeps the clock monotone, and the last arrival is the latest. */
  lemma MonotonePrefix(xs: seq<Arrival>)
    requires Monotone(xs) && xs != []
    ensures Monotone(xs[..|xs| - 1])
    ensures forall i :: 0 <= i < |xs| - 1 ==> xs[i].now <= xs[|xs| - 1].now
  {
  }

  /** Every instant recorded under a key is bounded by a bound on all instants of the stream. */
  lemma {:induction false} KeyTimesBounded(xs: seq<Arrival>, key: string, bound: real)
    requires forall i :: 0 <= i < |xs| ==> xs[i].now <= bound
    ensures forall t :: t in KeyTimes(xs, key) ==> t <= bound
  {
    if xs != [] {
      KeyTimesBounded(xs[..|xs| - 1], key, bound);
    }
  }

  /** The window a detector keeps for `key` is the given recorded times pruned at the latest of them. */
  predicate WindowMatches(d: DeauthDetector, key: string, times: seq<real>)
  {
    && (key in d.deauthCounts <==> times != [])
    && (times != [] ==> d.deauthCounts[key] == Window.Prune(times, times[|times| - 1], d.window))
  }

  /** One step keeps `WindowMatches`, the step's instant joining the times of its own key. */
  lemma WindowStep(d: DeauthDetector, a: Arrival, key: string, times: seq<real>)
    requires WindowMatches(d, key, times)
    requires forall t :: t in times ==> t <= a.now
    ensures WindowMatches(ProcessEvent(d, a.event, a.now), key,
                          if KeyOf(a) == key then times + [a.now] else times)
  {
    var after := ProcessEvent(d, a.event, a.now);
    if KeyOf(a) == key {
      Window.RecordThenPrune(times, a.now, d.window);
      if times != [] {
        var last := times[|times| - 1];
        assert last in times;
        Window.PruneLater(times, last, a.now, d.window);
      }
    }
  }

  /**
    With a clock that never runs backwards, the list a fresh detector keeps
    for a key is exactly the key's arrival instants that are still in the
    window at the key's latest arrival; a key that never arrived has no list.
   */
  lemma {:induction false} RunWindows(threshold: int, window: int, xs: seq<Arrival>, key: string)
    requires Monotone(xs)
    ensures Run(NewDetector(threshold, window), xs).window == window
    ensures WindowMatches(Run(NewDetector(threshold, window), xs), key, KeyTimes(xs, key))
  {
    RunEvents(NewDetector(threshold, window), xs);
    if xs != [] {
      var init, a := xs[..|xs| - 1], xs[|xs| - 1];
      MonotonePrefix(xs);
      RunWindows(threshold, window, init, key);
      assert forall i :: 0 <= i < |init| ==> init[i].now <= a.now;
      KeyTimesBounded(init, key, a.now);
      var before := Run(NewDetector(threshold, window), init);
      assert Run(NewDetector(threshold, window), xs) == ProcessEvent(before, a.event, a.now);
      assert KeyTimes(xs, key) == if KeyOf(a) == key then KeyTimes(init, key) + [a.now] else KeyTimes(init, key);
      WindowStep(before, a, key, KeyTimes(init, key));
    }
  }

  /**
    The threshold property: on a stream whose clock never runs backwards, the
    last frame raises an alert exactly when at least `threshold` frames of its
    key, itself included, fall within the window ending at it; the alert then
    reports that number of frames.
   */
  lemma ThresholdAlert(threshold: int, window: int, xs: seq<Arrival>)
    requires Monotone(xs) && xs != []
    ensures
      var a := xs[|xs| - 1];
      var before := Run(NewDetector(threshold, window), xs[..|xs| - 1]);
      var after := Run(NewDetector(threshold, window), xs);
      var recent := |Window.Prune(KeyTimes(xs, KeyOf(a)), a.now, window)|;
      && (|after.alerts| == |before.alerts| + 1 <==> recent >= threshold)
      && (|after.alerts| == |before.alerts| <==> recent < threshold)
      && (|after.alerts| == |before.alerts| + 1 ==> after.alerts[|before.alerts|].frameCount == recent)
  {
    var a := xs[|xs| - 1];
    RunWindows(threshold, window, xs, KeyOf(a));
    RunEvents(NewDetector(threshold, window), xs[..|xs| - 1]);
    assert KeyTimes(xs, KeyOf(a)) == KeyTimes(xs[..|xs| - 1], KeyOf(a)) + [a.now];
  }

  /** A list whose every time is still fresh survives pruning unchanged. */
  lemma {:induction false} PruneAllFresh(ts: seq<real>, now: real, window: int)
    requires forall i :: 0 <= i < |ts| ==> Window.Fresh(ts[i], now, window)
    ensures Window.Prune(ts, now, window) == ts
  {
    if ts != [] {
      PruneAllFresh(ts[1..], now, window);
    }
  }

  /**
    No cooldown: once a frame has raised an alert, a further frame of the same
    key arriving while all of that key's recorded frames are still fresh raises
    another alert, reporting one frame more.
   */
  lemma NoCooldown(d: DeauthDetector, e1: DeauthEvent, now1: real, e2: DeauthEvent, now2: real)
    requires WindowKey(e1.sourceMac, e1.destMac) == WindowKey(e2.sourceMac, e2.destMac)
    requires d.window > 0
    requires var d1 := ProcessEvent(d, e1, now1);
      && |d1.alerts| == |d.alerts| + 1
      && forall t :: t in d1.deauthCounts[WindowKey(e1.sourceMac, e1.destMac)] ==> Window.Fresh(t, now2, d.window)
    ensures var d1 := ProcessEvent(d, e1, now1);
      var d2 := ProcessEvent(d1, e2, now2);
      && |d2.alerts| == |d1.alerts| + 1
      && d2.alerts[|d1.alerts|].frameCount == d1.alerts[|d.alerts|].frameCount + 1
  {
    var key := WindowKey(e1.sourceMac, e1.destMac);
    var d1 := ProcessEvent(d, e1, now1);
    PruneAllFresh(d1.deauthCounts[key], now2, d.window);
  }
}

=== FILE: scenarios.dfy ===
/**
  Worked examples of the detector on fixed streams, with a window of 10
  seconds and a threshold of 3 frames.
 */
module Scenarios {
  import opened Wrappers
  import opened Records
  import opened Frequency
  import opened Engine
  import Window
  import Parser

  const A: string := "aa:bb:cc:dd:ee:01"
  const B: string := "11:22:33:44:55:66"
  const C: string := "aa:bb:cc:dd:ee:02"
  const E: string := "aa:bb:cc:dd:ee:03"
  const G: string := "77:88:99:aa:bb:cc"

  function Frame(source: string, dest: string): DeauthEvent
  {
    DeauthEvent("t", source, dest, source, Deauth, 1, None)
  }

  /** A disassociation frame from `source` to `dest`. */
  function Leave(source: string, dest: string): DeauthEvent
  {
    DeauthEvent("t", source, dest, source, Disassoc, 1, None)
  }

  function AB(): string { WindowKey(A, B) }
  function CB(): string { WindowKey(C, Broadcast) }
  function EG(): string { WindowKey(E, G) }

  lemma KeysDiffer()
    ensures AB() != CB()
  {
    assert AB()[16] == '1' && CB()[16] == '2';
  }

  lemma AddressesDiffer()
    ensures A != C && A != E && C != E
    ensures B != Broadcast && B != G && G != Broadcast
    ensures AB() != CB() && AB() != EG() && CB() != EG()
  {
    assert A[16] == '1' && C[16] == '2' && E[16] == '3';
    assert B[0] == '1' && Broadcast[0] == 'f' && G[0] == '7';
    assert AB()[16] == '1' && CB()[16] == '2' && EG()[16] == '3';
  }

  /** The first three frames: two A->B and one broadcast from C, no alert yet. */
  lemma Steps1To3(d0: DeauthDetector, d1: DeauthDetector, d2: DeauthDetector, d3: DeauthDetector)
    requires d0 == NewDetector(3, 10)
    requires d1 == ProcessEvent(d0, Frame(A, B), 0.0)
    requires d2 == ProcessEvent(d1, Frame(C, Broadcast), 0.0)
    requires d3 == ProcessEvent(d2, Frame(A, B), 1.0)
    ensures d3.window == 10 && d3.threshold == 3
    ensures History(d3, AB()) == [0.0, 1.0] && History(d3, CB()) == [0.0]
    ensures |d3.alerts| == 0
  {
    KeysDiffer();
    assert History(d1, AB()) == [0.0];
    assert History(d2, AB()) == [0.0] && History(d2, CB()) == [0.0];
    assert Window.Prune([0.0], 1.0, 10) == [0.0];
  }

  /** The third A->B frame within 10 seconds raises a targeted alert for 3 frames. */
  lemma Step4(d3: DeauthDetector, d4: DeauthDetector)
    requires d3.window == 10 && d3.threshold == 3
    requires History(d3, AB()) == [0.0, 1.0] && History(d3, CB()) == [0.0]
    requires d4 == ProcessEvent(d3, Frame(A, B), 2.0)
    ensures d4.window == 10 && d4.threshold == 3
    ensures History(d4, AB()) == [0.0, 1.0, 2.0] && History(d4, CB()) == [0.0]
    ensures |d4.alerts| == |d3.alerts| + 1 && d4.alerts[..|d3.alerts|] == d3.alerts
    ensures d4.alerts[|d3.alerts|].attackType == "Targeted Deauth Attack"
    ensures d4.alerts[|d3.alerts|].severity == "high" && d4.alerts[|d3.alerts|].frameCount == 3
  {
    KeysDiffer();
    assert Window.Prune([0.0, 1.0], 2.0, 10) == [0.0, 1.0] by {
      assert [0.0, 1.0][1..] == [1.0];
    }
  }

  /** A second broadcast frame from C: two in the window, below the threshold. */
  lemma Step5(d4: DeauthDetector, d5: DeauthDetector)
    requires d4.window == 10 && d4.threshold == 3
    requires History(d4, AB()) == [0.0, 1.0, 2.0] && History(d4, CB()) == [0.0]
    requires d5 == ProcessEvent(d4, Frame(C, Broadcast), 2.0)
    ensures d5.window == 10 && d5.threshold == 3
    ensures History(d5, AB()) == [0.0, 1.0, 2.0] && History(d5, CB()) == [0.0, 2.0]
    ensures d5.alerts == d4.alerts
  {
    KeysDiffer();
    assert Window.Prune([0.0], 2.0, 10) == [0.0];
  }

  /** The third broadcast frame of C within 10 seconds raises a critical alert for 3 frames. */
  lemma Step6(d5: DeauthDetector, d6: DeauthDetector)
    requires d5.window == 10 && d5.threshold == 3
    requires History(d5, AB()) == [0.0, 1.0, 2.0] && History(d5, CB()) == [0.0, 2.0]
    requires d6 == ProcessEvent(d5, Frame(C, Broadcast), 5.0)
    ensures d6.window == 10 && d6.threshold == 3
    ensures History(d6, AB()) == [0.0, 1.0, 2.0] && History(d6, CB()) == [0.0, 2.0, 5.0]
    ensures |d6.alerts| == |d5.alerts| + 1 && d6.alerts[..|d5.alerts|] == d5.alerts
    ensures d6.alerts[|d5.alerts|].attackType == "Broadcast Deauth Attack"
    ensures d6.alerts[|d5.alerts|].severity == "critical" && d6.alerts[|d5.alerts|].frameCount == 3
  {
    KeysDiffer();
    assert Window.Prune([0.0, 2.0], 5.0, 10) == [0.0, 2.0] by {
      assert [0.0, 2.0][1..] == [2.0];
    }
  }

  /** Pruning the A->B times at 11 keeps only the time 2. */
  lemma PruneAt11()
    ensures Window.Prune([0.0, 1.0, 2.0], 11.0, 10) == [2.0]
  {
    assert [0.0, 1.0, 2.0][1..] == [1.0, 2.0];
    assert [1.0, 2.0][1..] == [2.0];
    assert Window.Prune([2.0], 11.0, 10) == [2.0];
  }

  /**
    A fourth A->B frame at 11 finds only the frame at 2 still within 10
    seconds: the window holds 2 and 11, and no alert is raised.
   */
  lemma Step7(d6: DeauthDetector, d7: DeauthDetector)
    requires d6.window == 10 && d6.threshold == 3
    requires History(d6, AB()) == [0.0, 1.0, 2.0]
    requires d7 == ProcessEvent(d6, Frame(A, B), 11.0)
    ensures History(d7, AB()) == [2.0, 11.0]
    ensures d7.alerts == d6.alerts
  {
    PruneAt11();
  }

  /**
    The burst: after seven frames the detector has raised exactly one targeted
    alert for A->B and then one broadcast alert for C, each for 3 frames, and
    the A->B window has slid to the frames at 2 and 11.
   */
  lemma Burst()
    ensures
      var d0 := NewDetector(3, 10);
      var d1 := ProcessEvent(d0, Frame(A, B), 0.0);
      var d2 := ProcessEvent(d1, Frame(C, Broadcast), 0.0);
      var d3 := ProcessEvent(d2, Frame(A, B), 1.0);
      var d4 := ProcessEvent(d3, Frame(A, B), 2.0);
      var d5 := ProcessEvent(d4, Frame(C, Broadcast), 2.0);
      var d6 := ProcessEvent(d5, Frame(C, Broadcast), 5.0);
      var d7 := ProcessEvent(d6, Frame(A, B), 11.0);
      && |d7.alerts| == 2 && |d7.events| == 7
      && d7.alerts[0].attackType == "Targeted Deauth Attack" && d7.alerts[0].frameCount == 3
      && d7.alerts[1].attackType == "Broadcast Deauth Attack" && d7.alerts[1].frameCount == 3
      && History(d7, AB()) == [2.0, 11.0]
  {
    var d0 := NewDetector(3, 10);
    var d1 := ProcessEvent(d0, Frame(A, B), 0.0);
    var d2 := ProcessEvent(d1, Frame(C, Broadcast), 0.0);
    var d3 := ProcessEvent(d2, Frame(A, B), 1.0);
    var d4 := ProcessEvent(d3, Frame(A, B), 2.0);
    var d5 := ProcessEvent(d4, Frame(C, Broadcast), 2.0);
    var d6 := ProcessEvent(d5, Frame(C, Broadcast), 5.0);
    var d7 := ProcessEvent(d6, Frame(A, B), 11.0);
    Steps1To3(d0, d1, d2, d3);
    Step4(d3, d4);
    Step5(d4, d5);
    Step6(d5, d6);
    Step7(d6, d7);
  }

  /**
    Equal counts are listed in insertion order: with "y" and "z" both at 3,
    "y", inserted first, comes first; the list stops after the requested two.
   */
  lemma MostCommonTies()
    ensures MostCommon([Entry("x", 1), Entry("y", 3), Entry("z", 3), Entry("w", 2)], 2)
         == [Entry("y", 3), Entry("z", 3)]
  {
    var c := [Entry("x", 1), Entry("y", 3), Entry("z", 3), Entry("w", 2)];
    var p := TopPositions(c, 2);
    assert p[0] == 1 by {
      assert Precedes(c, p[0], 1) || p[0] == 1;
    }
    assert p[1] == 2 by {
      assert p[1] != 1;
      assert Precedes(c, p[1], 2) || p[1] == 2;
    }
  }

  /** MAC extraction on five tokens of which the second and fourth are MAC tokens. */
  lemma ExtractFive(t0: string, t1: string, t2: string, t3: string, t4: string)
    requires !Parser.IsMacToken(t0) && Parser.IsMacToken(t1) && !Parser.IsMacToken(t2)
    requires Parser.IsMacToken(t3) && !Parser.IsMacToken(t4)
    ensures Parser.ExtractMacs([t0, t1, t2, t3, t4]) == [Parser.Lower(t1), Parser.Lower(t3)]
  {
    Parser.ExtractMacsCons(t4, []);
    assert [t4] + [] == [t4];
    Parser.ExtractMacsCons(t3, [t4]);
    Parser.ExtractMacsCons(t2, [t3, t4]);
    Parser.ExtractMacsCons(t1, [t2, t3, t4]);
    Parser.ExtractMacsCons(t0, [t1, t2, t3, t4]);
    assert [t0, t1, t2, t3, t4] == [t0] + [t1, t2, t3, t4];
    assert [t1, t2, t3, t4] == [t1] + [t2, t3, t4];
    assert [t2, t3, t4] == [t2] + [t3, t4];
    assert [t3, t4] == [t3] + [t4];
  }

  /** The tokens of the example line. */
  function ExampleTokens(): seq<string>
  {
    ["Deauthentication", "AA:BB:CC:DD:EE:01", "to", "11:22:33:44:55:66", "reason:7"]
  }

  lemma UpperMacA()
    ensures Parser.IsMacToken("AA:BB:CC:DD:EE:01") && Parser.Lower("AA:BB:CC:DD:EE:01") == A
  {
    assert multiset("AA:BB:CC:DD:EE:01")[':'] == 5;
    LowerA();
  }

  lemma LowerA()
    ensures Parser.Lower("AA:BB:CC:DD:EE:01") == A
  {
  }

  lemma MacB()
    ensures Parser.IsMacToken(B) && Parser.Lower(B) == B
  {
    assert multiset(B)[':'] == 5;
    LowerB();
  }

  lemma LowerB()
    ensures Parser.Lower(B) == B
  {
  }

  lemma ExampleMacs()
    ensures Parser.ExtractMacs(ExampleTokens()) == [A, B]
  {
    var ts := ExampleTokens();
    UpperMacA();
    MacB();
    ExtractFive(ts[0], ts[1], ts[2], ts[3], ts[4]);
    assert ts == [ts[0], ts[1], ts[2], ts[3], ts[4]];
  }

  lemma ExampleSplit()
    ensures Parser.Split(Parser.Join(ExampleTokens())) == ExampleTokens()
    ensures Parser.Contains(Parser.Join(ExampleTokens()), Parser.DeauthMarker)
  {
    var ts := ExampleTokens();
    assert forall i :: 0 <= i < |ts| ==> Parser.IsWord(ts[i]);
    Parser.SplitJoin(ts);
    var line := Parser.Join(ts);
    assert line[..16] == Parser.DeauthMarker;
    Parser.ContainsIff(line, Parser.DeauthMarker);
    assert Parser.OccursAt(line, Parser.DeauthMarker, 0);
  }

  /**
    A line naming two MAC addresses in upper case yields a deauthentication
    event from the first to the second, lower-cased, with the first as BSSID.
   */
  lemma ParseExample()
    ensures Parser.ParseLine(Parser.Join(ExampleTokens()), "t") == Some(DeauthEvent("t", A, B, A, Deauth, 0, None))
  {
    ExampleMacs();
    ExampleSplit();
  }

  /*
    The demonstration stream the program ships with: eight frames half a second
    apart, a threshold of 3 frames and a window of 10 seconds.
   */

  lemma Demo1To2(d0: DeauthDetector, d1: DeauthDetector, d2: DeauthDetector)
    requires d0 == NewDetector(3, 10)
    requires d1 == ProcessEvent(d0, Frame(A, B), 0.0)
    requires d2 == ProcessEvent(d1, Frame(A, B), 0.5)
    ensures d2.window == 10 && d2.threshold == 3 && |d2.events| == 2 && d2.alerts == []
    ensures History(d2, AB()) == [0.0, 0.5] && History(d2, CB()) == [] && History(d2, EG()) == []
    ensures d2.sourceCounts == [Entry(A, 2)] && d2.targetCounts == [Entry(B, 2)]
  {
    AddressesDiffer();
    assert d1.sourceCounts == [Entry(A, 1)] && d1.targetCounts == [Entry(B, 1)] by {
      assert Get(d1.sourceCounts, A) == 1 && Get(d1.targetCounts, B) == 1;
    }
    assert History(d1, AB()) == [0.0] && History(d1, CB()) == [] && History(d1, EG()) == [] by {
      assert Window.Prune([], 0.0, 10) == [];
    }
    assert History(d2, AB()) == [0.0, 0.5] by {
      assert Window.Prune([0.0], 0.5, 10) == [0.0];
    }
    assert d2.sourceCounts == [Entry(A, 2)] by {
      IncrementCons(Entry(A, 1), [], A);
      assert [Entry(A, 1)] + [] == [Entry(A, 1)];
    }
    assert d2.targetCounts == [Entry(B, 2)] by {
      IncrementCons(Entry(B, 1), [], B);
      assert [Entry(B, 1)] + [] == [Entry(B, 1)];
    }
  }

  /** The first broadcast frame, from C: a second key and a second entry in each counter. */
  lemma Demo3(d2: DeauthDetector, d3: DeauthDetector)
    requires d2.window == 10 && d2.threshold == 3 && |d2.events| == 2 && d2.alerts == []
    requires History(d2, AB()) == [0.0, 0.5] && History(d2, CB()) == [] && History(d2, EG()) == []
    requires d2.sourceCounts == [Entry(A, 2)] && d2.targetCounts == [Entry(B, 2)]
    requires d3 == ProcessEvent(d2, Frame(C, Broadcast), 1.0)
    ensures d3.window == 10 && d3.threshold == 3 && |d3.events| == 3 && d3.alerts == []
    ensures History(d3, AB()) == [0.0, 0.5] && History(d3, CB()) == [1.0] && History(d3, EG()) == []
    ensures d3.sourceCounts == [Entry(A, 2), Entry(C, 1)]
    ensures d3.targetCounts == [Entry(B, 2), Entry(Broadcast, 1)]
  {
    AddressesDiffer();
    assert WindowKey(Frame(C, Broadcast).sourceMac, Frame(C, Broadcast).destMac) == CB();
    assert History(d3, AB()) == [0.0, 0.5] && History(d3, EG()) == [];
    assert History(d3, CB()) == [1.0] by {
      assert Window.Prune([], 1.0, 10) == [];
    }
    assert d3.sourceCounts == [Entry(A, 2), Entry(C, 1)] by {
      IncrementCons(Entry(A, 2), [], C);
      assert [Entry(A, 2)] + [] == [Entry(A, 2)];
    }
    assert d3.targetCounts == [Entry(B, 2), Entry(Broadcast, 1)] by {
      IncrementCons(Entry(B, 2), [], Broadcast);
      assert [Entry(B, 2)] + [] == [Entry(B, 2)];
    }
  }

  /** The third A->B frame raises the first alert, a targeted one for 3 frames. */
  lemma Demo4(d3: DeauthDetector, d4: DeauthDetector)
    requires d3.window == 10 && d3.threshold == 3 && |d3.events| == 3 && d3.alerts == []
    requires History(d3, AB()) == [0.0, 0.5] && History(d3, CB()) == [1.0] && History(d3, EG()) == []
    requires d3.sourceCounts == [Entry(A, 2), Entry(C, 1)]
    requires d3.targetCounts == [Entry(B, 2), Entry(Broadcast, 1)]
    requires d4 == ProcessEvent(d3, Frame(A, B), 1.5)
    ensures d4.window == 10 && d4.threshold == 3 && |d4.events| == 4 && |d4.alerts| == 1
    ensures d4.alerts[0].attackType == "Targeted Deauth Attack" && d4.alerts[0].frameCount == 3
    ensures History(d4, AB()) == [0.0, 0.5, 1.5] && History(d4, CB()) == [1.0] && History(d4, EG()) == []
    ensures d4.sourceCounts == [Entry(A, 3), Entry(C, 1)]
    ensures d4.targetCounts == [Entry(B, 3), Entry(Broadcast, 1)]
  {
    AddressesDiffer();
    assert Window.Prune([0.0, 0.5], 1.5, 10) == [0.0, 0.5] by {
      assert [0.0, 0.5][1..] == [0.5];
    }
    IncrementCons(Entry(A, 2), [Entry(C, 1)], A);
    IncrementCons(Entry(B, 2), [Entry(Broadcast, 1)], B);
    assert [Entry(A, 2)] + [Entry(C, 1)] == [Entry(A, 2), Entry(C, 1)];
    assert [Entry(B, 2)] + [Entry(Broadcast, 1)] == [Entry(B, 2), Entry(Broadcast, 1)];
  }

  /** Two more broadcast frames from C: the second raises a broadcast alert for 3 frames. */
  lemma Demo5To6(d4: DeauthDetector, d5: DeauthDetector, d6: DeauthDetector)
    requires d4.window == 10 && d4.threshold == 3 && |d4.events| == 4 && |d4.alerts| == 1
    requires History(d4, AB()) == [0.0, 0.5, 1.5] && History(d4, CB()) == [1.0] && History(d4, EG()) == []
    requires d4.sourceCounts == [Entry(A, 3), Entry(C, 1)]
    requires d4.targetCounts == [Entry(B, 3), Entry(Broadcast, 1)]
    requires d5 == ProcessEvent(d4, Frame(C, Broadcast), 2.0)
    requires d6 == ProcessEvent(d5, Frame(C, Broadcast), 2.5)
    ensures d6.window == 10 && d6.threshold == 3 && |d6.events| == 6
    ensures |d6.alerts| == 2 && d6.alerts[0] == d4.alerts[0]
    ensures d6.alerts[1].attackType == "Broadcast Deauth Attack" && d6.alerts[1].frameCount == 3
    ensures History(d6, AB()) == [0.0, 0.5, 1.5] && History(d6, EG()) == []
    ensures d6.sourceCounts == [Entry(A, 3), Entry(C, 3)]
    ensures d6.targetCounts == [Entry(B, 3), Entry(Broadcast, 3)]
  {
    AddressesDiffer();
    assert Window.Prune([1.0], 2.0, 10) == [1.0];
    assert History(d5, CB()) == [1.0, 2.0];
    assert Window.Prune([1.0, 2.0], 2.5, 10) == [1.0, 2.0] by {
      assert [1.0, 2.0][1..] == [2.0];
    }
    BumpSecond(A, C, 3, 1);
    BumpSecond(B, Broadcast, 3, 1);
    BumpSecond(A, C, 3, 2);
    BumpSecond(B, Broadcast, 3, 2);
  }

  /** Incrementing the second of two distinct keys. */
  lemma BumpSecond(x: string, y: string, m: int, n: int)
    requires x != y
    ensures Increment([Entry(x, m), Entry(y, n)], y) == [Entry(x, m), Entry(y, n + 1)]
  {
    IncrementCons(Entry(x, m), [Entry(y, n)], y);
    IncrementCons(Entry(y, n), [], y);
    assert [Entry(x, m)] + [Entry(y, n)] == [Entry(x, m), Entry(y, n)];
    assert [Entry(y, n)] + [] == [Entry(y, n)];
  }

  /** Incrementing a third key, new to a counter of two. */
  lemma AddThird(x: string, y: string, z: string, m: int, n: int)
    requires x != z && y != z
    ensures Increment([Entry(x, m), Entry(y, n)], z) == [Entry(x, m), Entry(y, n), Entry(z, 1)]
  {
    IncrementCons(Entry(x, m), [Entry(y, n)], z);
    IncrementCons(Entry(y, n), [], z);
    assert [Entry(x, m)] + [Entry(y, n)] == [Entry(x, m), Entry(y, n)];
    assert [Entry(y, n)] + [] == [Entry(y, n)];
  }

  /** A disassociation from a third source to a third target: a new key, no alert. */
  lemma Demo7(d6: DeauthDetector, d7: DeauthDetector)
    requires d6.window == 10 && d6.threshold == 3 && |d6.events| == 6 && |d6.alerts| == 2
    requires History(d6, AB()) == [0.0, 0.5, 1.5] && History(d6, EG()) == []
    requires d6.sourceCounts == [Entry(A, 3), Entry(C, 3)]
    requires d6.targetCounts == [Entry(B, 3), Entry(Broadcast, 3)]
    requires d7 == ProcessEvent(d6, Leave(E, G), 3.0)
    ensures d7.window == 10 && d7.threshold == 3 && |d7.events| == 7 && d7.alerts == d6.alerts
    ensures History(d7, AB()) == [0.0, 0.5, 1.5]
    ensures d7.sourceCounts == [Entry(A, 3), Entry(C, 3), Entry(E, 1)]
    ensures d7.targetCounts == [Entry(B, 3), Entry(Broadcast, 3), Entry(G, 1)]
  {
    AddressesDiffer();
    AddThird(A, C, E, 3, 3);
    AddThird(B, Broadcast, G, 3, 3);
  }

  /**
    The fourth A->B frame, all four still within the window, raises a third
    alert for 4 frames: an alert already raised for the pair does not hold
    the next one back.
   */
  lemma Demo8(d7: DeauthDetector, d8: DeauthDetector)
    requires d7.window == 10 && d7.threshold == 3 && |d7.events| == 7 && |d7.alerts| == 2
    requires History(d7, AB()) == [0.0, 0.5, 1.5]
    requires d7.sourceCounts == [Entry(A, 3), Entry(C, 3), Entry(E, 1)]
    requires d7.targetCounts == [Entry(B, 3), Entry(Broadcast, 3), Entry(G, 1)]
    requires d8 == ProcessEvent(d7, Frame(A, B), 3.5)
    ensures |d8.events| == 8 && |d8.alerts| == 3 && d8.alerts[..2] == d7.alerts
    ensures d8.alerts[2].attackType == "Targeted Deauth Attack" && d8.alerts[2].frameCount == 4
    ensures d8.sourceCounts == [Entry(A, 4), Entry(C, 3), Entry(E, 1)]
    ensures d8.targetCounts == [Entry(B, 4), Entry(Broadcast, 3), Entry(G, 1)]
  {
    AddressesDiffer();
    assert Window.Prune([0.0, 0.5, 1.5], 3.5, 10) == [0.0, 0.5, 1.5] by {
      assert [0.0, 0.5, 1.5][1..] == [0.5, 1.5];
      assert [0.5, 1.5][1..] == [1.5];
    }
    IncrementCons(Entry(A, 3), [Entry(C, 3), Entry(E, 1)], A);
    IncrementCons(Entry(B, 3), [Entry(Broadcast, 3), Entry(G, 1)], B);
    assert [Entry(A, 3)] + [Entry(C, 3), Entry(E, 1)] == [Entry(A, 3), Entry(C, 3), Entry(E, 1)];
    assert [Entry(B, 3)] + [Entry(Broadcast, 3), Entry(G, 1)] == [Entry(B, 3), Entry(Broadcast, 3), Entry(G, 1)];
  }

  /** Three entries already in non-increasing order of count rank as they stand. */
  lemma RankedAsIs(x: Entry, y: Entry, z: Entry)
    requires x.count >= y.count >= z.count
    ensures MostCommon([x, y, z], TopCount) == [x, y, z]
  {
    var c := [x, y, z];
    assert forall i, j :: 0 <= i < j < |c| ==> c[i].count >= c[j].count by {
      assert c[0] == x && c[1] == y && c[2] == z;
    }
    assert c[..3] == c;
    MostCommonOfSorted(c, TopCount);
  }

  /** The statistics of a detector holding the counters the demonstration ends with. */
  lemma DemoStats(d: DeauthDetector)
    requires |d.events| == 8 && |d.alerts| == 3
    requires d.sourceCounts == [Entry(A, 4), Entry(C, 3), Entry(E, 1)]
    requires d.targetCounts == [Entry(B, 4), Entry(Broadcast, 3), Entry(G, 1)]
    ensures GetStats(d) == Stats(8, 3, 3, 3, d.sourceCounts, d.targetCounts)
  {
    RankedAsIs(Entry(A, 4), Entry(C, 3), Entry(E, 1));
    RankedAsIs(Entry(B, 4), Entry(Broadcast, 3), Entry(G, 1));
  }

  /**
    The demonstration ends with 8 events, 3 alerts (targeted, broadcast,
    targeted), 3 distinct sources and 3 distinct targets, and the sources and
    targets ranked by frame count.
   */
  lemma Demo()
    ensures
      var d0 := NewDetector(3, 10);
      var d1 := ProcessEvent(d0, Frame(A, B), 0.0);
      var d2 := ProcessEvent(d1, Frame(A, B), 0.5);
      var d3 := ProcessEvent(d2, Frame(C, Broadcast), 1.0);
      var d4 := ProcessEvent(d3, Frame(A, B), 1.5);
      var d5 := ProcessEvent(d4, Frame(C, Broadcast), 2.0);
      var d6 := ProcessEvent(d5, Frame(C, Broadcast), 2.5);
      var d7 := ProcessEvent(d6, Leave(E, G), 3.0);
      var d8 := ProcessEvent(d7, Frame(A, B), 3.5);
      && GetStats(d8) == Stats(8, 3, 3, 3,
                               [Entry(A, 4), Entry(C, 3), Entry(E, 1)],
                               [Entry(B, 4), Entry(Broadcast, 3), Entry(G, 1)])
      && Kinds(d8.alerts) == [("Targeted Deauth Attack", 3), ("Broadcast Deauth Attack", 3),
                              ("Targeted Deauth Attack", 4)]
  {
    var d0 := NewDetector(3, 10);
    var d1 := ProcessEvent(d0, Frame(A, B), 0.0);
    var d2 := ProcessEvent(d1, Frame(A, B), 0.5);
    var d3 := ProcessEvent(d2, Frame(C, Broadcast), 1.0);
    var d4 := ProcessEvent(d3, Frame(A, B), 1.5);
    var d5 := ProcessEvent(d4, Frame(C, Broadcast), 2.0);
    var d6 := ProcessEvent(d5, Frame(C, Broadcast), 2.5);
    var d7 := ProcessEvent(d6, Leave(E, G), 3.0);
    var d8 := ProcessEvent(d7, Frame(A, B), 3.5);
    Demo1To2(d0, d1, d2);
    Demo3(d2, d3);
    Demo4(d3, d4);
    Demo5To6(d4, d5, d6);
    Demo7(d6, d7);
    Demo8(d7, d8);
    DemoStats(d8);
    DemoKinds(d8.alerts);
  }

  lemma DemoKinds(alerts: seq<Alert>)
    requires |alerts| == 3
    requires alerts[0].attackType == "Targeted Deauth Attack" && alerts[0].frameCount == 3
    requires alerts[1].attackType == "Broadcast Deauth Attack" && alerts[1].frameCount == 3
    requires alerts[2].attackType == "Targeted Deauth Attack" && alerts[2].frameCount == 4
    ensures Kinds(alerts) == [("Targeted Deauth Attack", 3), ("Broadcast Deauth Attack", 3),
                              ("Targeted Deauth Attack", 4)]
  {
  }

  /** The attack type and frame count of each alert, in order. */
  function Kinds(alerts: seq<Alert>): (r: seq<(string, int)>)
    ensures |r| == |alerts|
    ensures forall i :: 0 <= i < |alerts| ==> r[i] == (alerts[i].attackType, alerts[i].frameCount)
  {
    seq(|alerts|, i requires 0 <= i < |alerts| => (alerts[i].attackType, alerts[i].frameCount))
  }
}

=== FILE: window.dfy ===
/**
  The per-key list of recent frame times. After each frame the whole list is
  filtered: a time `t` stays exactly when `now - t < window`, and the kept times
  keep their order. The filter runs over the whole list, so times that arrived
  out of order are removed at the key's next frame once they are stale,
  wherever they sit.
 */
module Window {

  /** True when a frame seen at `t` still counts at `now`. */
  predicate Fresh(t: real, now: real, window: int)
  {
    now - t < window as real
  }

  /** The times of `ts` still in the window at `now`, in their original order. */
  function Prune(ts: seq<real>, now: real, window: int): (r: seq<real>)
    ensures |r| <= |ts|
    ensures forall i :: 0 <= i < |r| ==> Fresh(r[i], now, window)
  {
    if ts == [] then []
    else
      var head := if Fresh(ts[0], now, window) then [ts[0]] else [];
      head + Prune(ts[1..], now, window)
  }

  /**
    Pruning keeps every fresh time as often as it was recorded and drops every
    stale one, so the count it leaves is the number of fresh recorded times.
   */
  lemma {:induction false} PruneContents(ts: seq<real>, now: real, window: int)
    ensures forall t :: multiset(Prune(ts, now, window))[t]
                        == if Fresh(t, now, window) then multiset(ts)[t] else 0
  {
    if ts != [] {
      PruneContents(ts[1..], now, window);
      assert ts == [ts[0]] + ts[1..];
    }
  }

  /** Pruning distributes over concatenation, so it keeps the order of the kept times. */
  lemma {:induction false} PruneAppend(a: seq<real>, b: seq<real>, now: real, window: int)
    ensures Prune(a + b, now, window) == Prune(a, now, window) + Prune(b, now, window)
  {
    if a != [] {
      assert (a + b)[1..] == a[1..] + b;
      PruneAppend(a[1..], b, now, window);
    } else {
      assert a + b == b;
    }
  }

  /** A single time is kept exactly when it is fresh. */
  lemma PruneSingle(t: real, now: real, window: int)
    ensures Prune([t], now, window) == if Fresh(t, now, window) then [t] else []
  {
    assert [t][1..] == [];
  }

  /**
    The step the detector takes: append `now`, then prune at `now`. The result is
    the old list pruned at `now`, followed by `now` itself exactly when the window
    is positive.
   */
  lemma RecordThenPrune(ts: seq<real>, now: real, window: int)
    ensures Prune(ts + [now], now, window)
         == Prune(ts, now, window) + (if window > 0 then [now] else [])
  {
    PruneAppend(ts, [now], now, window);
    PruneSingle(now, now, window);
  }

  /**
    With clocks that do not run backwards, pruning at an earlier instant and
    again at a later one keeps exactly what pruning once at the later one keeps:
    a time fresh at the later instant was fresh at the earlier one too.
   */
  lemma {:induction false} PruneLater(ts: seq<real>, earlier: real, later: real, window: int)
    requires earlier <= later
    ensures Prune(Prune(ts, earlier, window), later, window) == Prune(ts, later, window)
  {
    if ts != [] {
      var head := if Fresh(ts[0], earlier, window) then [ts[0]] else [];
      assert Prune(ts, earlier, window) == head + Prune(ts[1..], earlier, window);
      PruneAppend(head, Prune(ts[1..], earlier, window), later, window);
      PruneLater(ts[1..], earlier, later, window);
      if Fresh(ts[0], earlier, window) {
        PruneSingle(ts[0], later, window);
      }
    }
  }
}

=== FILE: wrappers.dfy ===
/** Optional values, shared by the other modules. */
module Wrappers {

  /** A value that may be absent. */
  datatype Option<+T> = None | Some(value: T)
}
